=== FILE: README.md ===
# Event matching: the decisions behind the pages

This project models the core of a React app for weekend group events. A user
marks days on a calendar. Each marked day becomes a calendar slot that is
*recruiting* until enough people join, then *matched*, and then the app
proposes a venue.

The app's logic is a set of small pure decisions inside its pages and
components. Each decision is modelled as a pure Dafny function or as a
reducer over explicit events:

- **Calendar queries.** The per-user list query and the date-range query over
  the bundled calendar table.
- **Dashboard.** Building the `YYYY-MM-DD` key, the first-match lookup of the
  selected day, the status → page switch, and the `?date=…&calendarId=…` URL.
- **Tile colours.** The status → CSS class table of both calendar components.
- **Recruiting page.**
  - The detail load, including the missing-id error and the fallback to seed
    records when the request fails.
  - The hobby catalogue fallback and `getActivityName`.
  - The phase derived from `count >= mincapacity`, and the `found → matched`
    dwell timer.
- **Matching page.** The simulated engine: an interval tick driven by a random
  bit, and the dwell timer.
- **Progress displays.**
  - Participant icons and the remaining-to-start count.
  - The unclamped and the clamped progress percentage.
  - The status text and emoji.
- **Steppers.** The group-size selector and the registration page's attendee
  stepper.
- **Forms.** The registration form's submit guard, its request, and the page
  chosen from the response status. The event form's initial state, field
  handlers and validity flag.
- **Venue proposal.** Filter by activity, stable sort by rating with the
  highest first, recommend the top two and auto-select the best. Also the
  accept guard, the default navigation state and the category emoji.

## How things are modelled

- **Files and modules.** There is one module per page or component, plus small
  shared modules:
  - `Common`: `Option`, a fetch outcome, and `Array.prototype.find`.
  - `Decimal`: `String(n)` and its inverse.
  - `LexOrder`: JavaScript's string `<=`.
  - `DateKey`: `padStart` and the day key.
  - `SlotStatus`: the slot status.
  - `Lifecycle`: the matching phases.
  - `JsNumber`: the few number operations the progress bars use.
- **Slot status.** The calendar list carries free-form status strings, so the
  status is `Recruiting | Matched | Closed | Cancelled | Unknown | Other(raw)`.
  `SlotStatus.Parse` and `SlotStatus.Name` are mutually inverse on valid values.
- **The outside world becomes parameters.**
  - Seed JSON tables are sequences.
  - A network call is an input outcome, `Fetched(body) | FetchFailed`.
  - `Math.random() > 0.7` is a boolean.
  - An interval tick and the 3-second dwell timer are explicit events.
  - The current date is a string parameter.
  - A registration request is answered by a function parameter.
- **Numbers.** Progress percentages are exact rationals. A zero divisor gives
  an infinity or `NaN` instead of failing, as in JavaScript. Ratings are reals.
  Counts are unbounded integers.
- **Lookups.** "First entry with this date" is `Common.Find`. Its contract is
  first-match: the element returned sits at the least index satisfying the
  predicate.

### Behaviour of the code worth knowing

- **Recruiting phase can regress.** The recruiting page re-derives its phase on
  every data change. A slot shown as `matched` therefore goes back to
  `searching` if a later update reports fewer participants.
  `Recruiting.MatchedCanRegress` states this.
- **Recruiting never shows `found`.** The derivation never yields `found`, so
  the page's own `found → matched` timer never fires.
  `Recruiting.NeverFound` states this.
- **No "not found" result.** An unknown calendar id does not give a not-found
  result. After a failed request the page looks up the seed calendar whose id
  renders as the requested id, and the seed group of that calendar. Only when
  a lookup finds nothing does it use the first seed calendar or the first seed
  group.
- **No zero-capacity guard.** The pages only produce counts of 0 or more.
  For such a count and a `min` of 0:
  - the unclamped progress `current / min * 100` is `Infinity` or `NaN`;
  - the clamped one is then 100 or `NaN`.

  A negative count with a `min` of 0 would give `-Infinity`.

## Model

| member | source | states |
|---|---|---|
| Common.FindIndex | src/pages/dashboard/Dashboard.tsx:45 | `find`'s position: none exactly when no element satisfies the predicate, otherwise the least index that does |
| Common.Find | src/components/Calendar.tsx:39 | `find` returns nothing iff no element matches, else the element at the first matching index |
| Common.FindIgnoresSuffix | src/components/calendar/Calendar.tsx:35 | once a match exists, appending elements never changes what `find` returns |
| Decimal.NatToString | src/pages/dashboard/Dashboard.tsx:41-42 | `String(n)` is a non-empty run of decimal digits with no leading zero (only 0 itself starts with `0`), one digit exactly below 10, two exactly for 10..99, four exactly for 1000..9999 |
| Decimal.IntToString | src/pages/Recruiting/Recruiting.tsx:107 | `toString()` of an integer is digits with at most a leading `-`, present exactly for negatives, and has no leading zero except for 0 itself, so it is the canonical rendering |
| Decimal.ParseNatToString | src/pages/dashboard/Dashboard.tsx:70 | reading the decimal rendering of a natural number back gives the number |
| Decimal.ParseIntToString | src/pages/dashboard/Dashboard.tsx:70 | reading `calenderid.toString()` back gives the id, negatives included |
| Decimal.IntToStringInjective | src/pages/Recruiting/Recruiting.tsx:107 | two ids with the same string are the same id, so `id.toString() === calendarId` identifies at most one id |
| LexOrder.LessOrEqual | src/services/api/calendarApi.ts:63-64 | string `<=` holds whenever the left string is a prefix of the right, so a shorter common prefix sorts first |
| LexOrder.FirstDifference | src/services/api/calendarApi.ts:63-64 | at the first position where two strings differ, `<=` holds exactly when the left character is the smaller: the order is lexicographic by character |
| LexOrder.ExtensionAfter | src/services/api/calendarApi.ts:63-64 | a proper extension of a string orders strictly after it |
| LexOrder.Reflexive | src/services/api/calendarApi.ts:63-64 | every date string is within the range it bounds on both ends |
| LexOrder.AntiSymmetric | src/services/api/calendarApi.ts:63-64 | `a <= b` and `b <= a` on strings only when `a == b`, so a one-day range means equality |
| LexOrder.Transitive | src/services/api/calendarApi.ts:63-64 | string `<=` is transitive |
| LexOrder.Total | src/services/api/calendarApi.ts:63-64 | any two strings are ordered one way or the other |
| SlotStatus.Parse | src/services/api/dto/getCalendarDetailApi-dto.ts:16 | every status string maps to a valid status whose name is that same string |
| SlotStatus.ParseNullable | src/services/api/dto/getCalendarDetailApi-dto.ts:16 | `null` stays absent, and a present string maps to the status named by it |
| SlotStatus.ParseName | src/utils/constants.ts:33-38 | printing a valid status and reading it back gives the same status |
| CalendarApi.Select | src/services/api/calendarApi.ts:61-72 | filter-then-project: as many entries as records kept, each from a kept record, and no kept record missing |
| CalendarApi.UserCalendars | src/services/api/calendarApi.ts:28-42 | every entry projects a record of the user, every record of the user appears, and the result is no longer than the table |
| CalendarApi.UserCalendarsByDateRange | src/services/api/calendarApi.ts:53-75 | exactly the user's records with `startDate <= date <= endDate` under string order, both ends inclusive |
| CalendarApi.UserCalendarsByDate | src/services/api/calendarApi.ts:84-86 | the range query with both ends equal keeps exactly the user's records whose date equals the given date |
| CalendarApi.SelectAppend | src/services/api/calendarApi.ts:32-39 | the query distributes over concatenation of the table, so it preserves record order |
| CalendarApi.SelectSingle | src/services/api/calendarApi.ts:35-39 | one record yields its projection `{calenderid: id, date, status}` if kept, nothing otherwise |
| CalendarApi.UserCalendarsCount | src/services/api/calendarApi.ts:32-39 | the user's list has exactly as many entries as the table has records of the user |
| CalendarApi.EmptyRange | src/services/api/calendarApi.ts:61-65 | a range whose start is after its end keeps nothing |
| CalendarApi.UserCalendarsByDateCount | src/services/api/calendarApi.ts:84-86 | the single-day query keeps exactly as many entries as the user has records on that day |
| CalendarApi.CountOnDate | src/services/api/calendarApi.ts:84-86 | the count of a user's records on a day never exceeds the table size |
| DateKey.PadStart | src/pages/dashboard/Dashboard.tsx:41-42 | `padStart`: length is the larger of width and input, the input is the suffix, and the prefix is all fill characters |
| DateKey.Key | src/pages/dashboard/Dashboard.tsx:40-42 | the date key consists of digits and dashes only |
| DateKey.TwoDigitsRoundTrip | src/pages/dashboard/Dashboard.tsx:41-42 | a month or day below 100 pads to exactly two digits that read back as the number |
| DateKey.ParseKeyOfKey | src/pages/dashboard/Dashboard.tsx:40-42 | the key of a valid day reads back as that day |
| DateKey.KeyInjective | src/components/Calendar.tsx:32-34 | different valid days have different keys, so a tile never picks up another day's entry |
| DateKey.KeyShape | src/pages/dashboard/Dashboard.tsx:40-42 | for a four-digit year the key is 10 characters with dashes at positions 4 and 7 |
| Dashboard.LoadCalendars | src/pages/dashboard/Dashboard.tsx:18-27 | the dashboard's list holds exactly the projections of user 1's records |
| Dashboard.SelectedCalendar | src/pages/dashboard/Dashboard.tsx:45 | the selected entry is absent iff no entry has the key's date, else it is the first entry with it |
| Dashboard.PathFor | src/pages/dashboard/Dashboard.tsx:48-64 | `recruiting` leads to `/recruiting`, `matched` to `/proposal`, and every other status or no entry to `/register` |
| Dashboard.Target | src/pages/dashboard/Dashboard.tsx:40-71 | the date parameter is always the key; `calendarId` is present iff an entry has that date, and then is the first such entry's id, with the path chosen from that entry's status |
| Dashboard.HandleDateSelect | src/pages/dashboard/Dashboard.tsx:66-74 | the URL reads back as the page, the `date` parameter and the optional `calendarId` parameter |
| Dashboard.SplitFirstAt | src/pages/dashboard/Dashboard.tsx:73 | splitting `path?query` at the first `?` recovers both halves when the path has no `?` |
| Dashboard.SplitFirstAbsent | src/pages/dashboard/Dashboard.tsx:73 | a string with no separator splits into itself and nothing |
| Dashboard.Url | src/pages/dashboard/Dashboard.tsx:66-73 | `path?date=…` with `&calendarId=…` appended only when an entry exists reads back as the same page, date and id, with `date` first, whenever the page has no `?` and the date no `&` |
| Dashboard.QueryRoundTrip | src/pages/dashboard/Dashboard.tsx:66-73 | the `URLSearchParams` string with `date` set first and `calendarId` set only when present reads back as that date and id after the page |
| Dashboard.TargetIgnoresLaterEntries | src/pages/dashboard/Dashboard.tsx:45 | entries after the first for the selected day change neither the page nor the parameters |
| TileClass.ClassFor | src/components/Calendar.tsx:44-57 | yellow iff recruiting, green iff matched, gray iff closed or cancelled, white iff unknown, empty iff absent or any other status |
| TileClass.TileClassName | src/components/Calendar.tsx:30-60 | empty outside the month view or for a day with no entry, otherwise the class of the first entry dated on that day |
| TileClass.ItemTileClassName | src/components/calendar/Calendar.tsx:26-56 | the same for `CalendarItem`s, a `null` status giving the empty class |
| TileClass.TileIgnoresLaterEntries | src/components/Calendar.tsx:39-57 | the class depends only on the first entry for the day |
| TileClass.TileAgreesWithNavigation | src/components/Calendar.tsx:44-57 | on a month tile, yellow exactly when selecting the day opens `/recruiting`, green exactly for `/proposal`, any other class exactly for `/register` |
| Lifecycle.Dwell | src/pages/Matching/Matching.tsx:57-65 | the dwell timer turns `found` into `matched`, leaves any other phase alone, and never yields `found` |
| Hobbies.HobbiesAfterFetch | src/pages/Recruiting/Recruiting.tsx:51-69 | a failed fetch yields exactly four hobbies with ids `1`–`4`; an empty body yields no hobbies; otherwise the fetched list |
| Hobbies.FallbackIdsDistinct | src/pages/Recruiting/Recruiting.tsx:59-64 | the fallback hobbies have pairwise distinct ids |
| Recruiting.SelectSeedCalendar | src/pages/Recruiting/Recruiting.tsx:107 | the first seed calendar whose id renders as the requested id, else the first record; nothing only for an empty table |
| Recruiting.SelectGroup | src/pages/Recruiting/Recruiting.tsx:108 | the first group whose id is the calendar's `group_id`, else the first group; nothing only for an empty table |
| Recruiting.FallbackEvent | src/pages/Recruiting/Recruiting.tsx:112-127 | fallback data has capacities 2 and 6, count 0, one shop at the group's location in 東京都渋谷区, and the seed record's user, hobby, date, time slot, intensity, attendees and status |
| Recruiting.LoadDetail | src/pages/Recruiting/Recruiting.tsx:72-133 | a missing or empty id is an error; a successful request is used as is; a failed one loads the fallback event built from the selected seed calendar and its selected group, and is the detail-failed error only when a seed table is empty |
| Recruiting.ActivityName | src/pages/Recruiting/Recruiting.tsx:142-145 | the name of the first hobby with the id, or `ボードゲーム` when none has it |
| Recruiting.FallbackActivityNames | src/pages/Recruiting/Recruiting.tsx:59-64 | with the fallback catalogue each id `1`–`4` names its own activity |
| Recruiting.OnEventData | src/pages/Recruiting/Recruiting.tsx:154-161 | the phase becomes `matched` iff `count >= mincapacity`, else `searching`; the animation flag is untouched |
| Recruiting.OnDwell | src/pages/Recruiting/Recruiting.tsx:164-172 | only `found` moves, to `matched`; every other state is unchanged |
| Recruiting.NeverFound | src/pages/Recruiting/Recruiting.tsx:148-172 | from any state not `found`, in particular the initial one, no sequence of updates and timer events shows `found`, and the animation flag never changes |
| Recruiting.MatchedCanRegress | src/pages/Recruiting/Recruiting.tsx:158 | a `matched` page goes back to `searching` when an update lowers the count below the minimum |
| Recruiting.FallbackIsSearching | src/pages/Recruiting/Recruiting.tsx:106-127 | with an id and non-empty seed tables a failed request still loads seed data, and that data always derives `searching` |
| Matching.Tick | src/pages/Matching/Matching.tsx:33-54 | below the minimum with the bit set, the count grows by one, the phase is `found` iff the minimum is reached, and the join animates; otherwise only the animation flag clears |
| Matching.OnDwell | src/pages/Matching/Matching.tsx:57-65 | the dwell moves `found` to `matched` and changes nothing else |
| Matching.RunBounds | src/pages/Matching/Matching.tsx:35-61 | over any run the minimum never changes, the count never decreases, and a count starting at or below the minimum never passes it |
| Matching.RunConsistent | src/pages/Matching/Matching.tsx:42-61 | any phase past `searching` comes with a count at the minimum, and every transition keeps it so |
| Matching.MatchedIsFinal | src/pages/Matching/Matching.tsx:49 | once `matched`, ticks and timers leave the phase and the count alone |
| Matching.FromInitial | src/pages/Matching/Matching.tsx:25-30 | from the initial state (1 of 4, searching) every run stays between 1 and 4 participants with the phase consistent |
| Matching.ThreeJoinsThenDwell | src/pages/Matching/Matching.tsx:37-61 | three successful draws reach `found` with 4 participants, and the dwell then shows `matched` |
| JsNumber.Divide | src/components/recruiting/ParticipantCounter/ParticipantCounter.tsx:17 | division is exact for a non-zero divisor; for zero it is an infinity of the dividend's sign, or `NaN` for 0/0 |
| JsNumber.Scale | src/components/recruiting/ParticipantCounter/ParticipantCounter.tsx:17 | multiplying by a positive constant keeps infinities and `NaN`, and scales finite values |
| JsNumber.Min | src/components/recruiting/MatchingStatus/MatchingStatus.tsx:49 | `Math.min` against a finite bound never exceeds it, clamps `Infinity` to it, and propagates `NaN` |
| ParticipantCounter.Progress | src/components/recruiting/ParticipantCounter/ParticipantCounter.tsx:17 | the unclamped percentage times the minimum is the count times 100, it exceeds 100 above the minimum, it is non-negative for a non-negative count and a positive minimum, and for a zero minimum it is `Infinity` for a positive count, `NaN` for a zero count and `-Infinity` for a negative one |
| ParticipantCounter.Remaining | src/components/recruiting/ParticipantCounter/ParticipantCounter.tsx:51 | never negative, zero iff the count has reached the minimum, otherwise exactly the shortfall |
| ParticipantCounter.Icons | src/components/recruiting/ParticipantCounter/ParticipantCounter.tsx:24-35 | `maxCount` icons; icon `i` is filled iff `i < currentCount` and pulses iff animating and `i == currentCount - 1` |
| ParticipantCounter.CountFilledPrefix | src/components/recruiting/ParticipantCounter/ParticipantCounter.tsx:30-32 | a row filled below a threshold has the threshold, clamped to the row, filled icons |
| ParticipantCounter.CountPulsingAtMostOne | src/components/recruiting/ParticipantCounter/ParticipantCounter.tsx:34 | if only index `k` may pulse, at most one icon pulses, and one does iff `k` is on the row and pulsing |
| ParticipantCounter.FilledIcons | src/components/recruiting/ParticipantCounter/ParticipantCounter.tsx:24-32 | the number of filled icons is `min(currentCount, maxCount)`, never below zero |
| ParticipantCounter.PulsingIcons | src/components/recruiting/ParticipantCounter/ParticipantCounter.tsx:34 | at most one icon pulses, and one does exactly when a join animates and the newest participant is on the row |
| MatchingStatus.ProgressPercentage | src/components/recruiting/MatchingStatus/MatchingStatus.tsx:48-50 | the clamped percentage never exceeds 100, is 100 once the count reaches a positive minimum, and is non-negative for a non-negative count and a positive minimum; for a zero minimum it is 100 for a positive count, `NaN` for a zero count and `-Infinity` for a negative one |
| MatchingStatus.CancelPositive | src/components/recruiting/MatchingStatus/MatchingStatus.tsx:49 | comparing percentages by cross-multiplication: a positive minimum can be cancelled |
| MatchingStatus.AgreesBelowMinimum | src/components/recruiting/MatchingStatus/MatchingStatus.tsx:49 | up to the minimum the clamped and the unclamped displays show the same value |
| MatchingStatus.Monotone | src/components/recruiting/MatchingStatus/MatchingStatus.tsx:49 | for a fixed positive minimum, more participants never show less progress |
| MatchingStatus.StatusDisplayDistinct | src/components/recruiting/MatchingStatus/MatchingStatus.tsx:22-46 | the three phases have distinct texts and distinct emoji, each different from the default `マッチング中...` / `⏳` |
| MatchingStatus.StatusText | src/components/recruiting/MatchingStatus/MatchingStatus.tsx:22-33 | each phase name has its own message and only that name shows it; every other value shows `マッチング中...` |
| MatchingStatus.StatusEmoji | src/components/recruiting/MatchingStatus/MatchingStatus.tsx:35-46 | each phase name has its own emoji and only that name shows it; every other value shows `⏳` |
| GroupSize.Increment | src/components/event/GroupSizeSelector/GroupSizeSelector.tsx:17-21 | reports `size + 1` exactly when the `+` button is enabled (`size < maxSize`), never above the maximum |
| GroupSize.Decrement | src/components/event/GroupSizeSelector/GroupSizeSelector.tsx:23-27 | reports `size - 1` exactly when the `−` button is enabled (`size > minSize`), never below the minimum |
| GroupSize.Apply | src/components/event/GroupSizeSelector/GroupSizeSelector.tsx:17-27 | one click moves the size by at most one and keeps an in-bounds size in bounds |
| GroupSize.ApplyAllInBounds | src/components/event/GroupSizeSelector/GroupSizeSelector.tsx:14-27 | any sequence of clicks keeps an in-bounds size within `[minSize, maxSize]` |
| GroupSize.DefaultBoundsInRange | src/components/event/GroupSizeSelector/GroupSizeSelector.tsx:14-15 | with the default bounds 1 and 10 a size inside them stays inside them, and one click moves it by at most one |
| Register.DecreaseAttendees | src/pages/register/Register.tsx:222 | the `-` button never goes below 1, and lowers by one above it |
| Register.IncreaseAttendees | src/pages/register/Register.tsx:230 | the `+` button never goes above 10, and raises by one below it |
| Register.AttendeesInRange | src/pages/register/Register.tsx:222-230 | from the initial count 1, or any count in range, the count stays in `[1, 10]` under any presses |
| Register.OfferedHobbies | src/pages/register/Register.tsx:145 | at most four hobbies, the first four of the list, or all of a shorter list |
| Register.FallbackAllOffered | src/pages/register/Register.tsx:31-39 | after a failed hobby fetch all four fallback hobbies are offered |
| Register.BuildRequest | src/pages/register/Register.tsx:71-81 | the request always has user `1` and status `recruiting`, the query date or `""`, and the form's selections |
| Register.PathAfterRegister | src/pages/register/Register.tsx:86-96 | `recruiting` leads to `/recruiting`, `matched` to `/proposal`, anything else to `/dashboard` |
| Register.HandleSubmit | src/pages/register/Register.tsx:59-99 | an incomplete form sends nothing; otherwise the built request is sent, a failed call navigates nowhere, and a response navigates by its status |
| Register.InitialFormRejected | src/pages/register/Register.tsx:16-19 | the initial form cannot be submitted |
| EventForm.InitialForm | src/pages/EventForm/EventForm.tsx:33-39 | the initial form has empty activity, intensity and capacity, group size 2, and the selected date |
| EventForm.ApplyEdit | src/pages/EventForm/EventForm.tsx:41-55 | each change handler sets its own field and leaves every other field unchanged |
| EventForm.HandleSubmit | src/pages/EventForm/EventForm.tsx:57-70 | navigates to `/matching` with the form exactly when activity, intensity and capacity are all non-empty |
| EventForm.IsFormValid | src/pages/EventForm/EventForm.tsx:76 | the flag that enables the submit button is true exactly when `handleSubmit` navigates instead of alerting |
| EventForm.InitialFormNeedsThreeSelections | src/pages/EventForm/EventForm.tsx:33-70 | the initial form cannot be submitted, and can be once the three selections are made |
| EventForm.GroupSizeStaysInBounds | src/pages/EventForm/EventForm.tsx:108-113 | through the selector bounded by 1 and 8 the group size stays in `[1, 8]`, and no other field changes |
| Proposal.FilterByCategory | src/pages/Proposal/Proposal.tsx:34-36 | exactly the venues of the activity, no more than the input |
| Proposal.FilterAppend | src/pages/Proposal/Proposal.tsx:34-36 | `filter` distributes over concatenation, so it keeps the input order and every occurrence of a kept venue |
| Proposal.FilterSingle | src/pages/Proposal/Proposal.tsx:34-36 | one venue is kept exactly when its category equals the activity |
| Proposal.Insert | src/pages/Proposal/Proposal.tsx:39 | inserting a venue adds exactly that venue to the multiset |
| Proposal.InsertSorted | src/pages/Proposal/Proposal.tsx:39 | inserting into a list sorted by non-increasing rating keeps it sorted |
| Proposal.SortByRating | src/pages/Proposal/Proposal.tsx:39 | the sorted list is a permutation of the input with non-increasing rating |
| Proposal.RatedAt | src/pages/Proposal/Proposal.tsx:39 | the venues of one rating are exactly the list's venues with that rating |
| Proposal.RatedAtConcat | src/pages/Proposal/Proposal.tsx:39 | selecting one rating distributes over concatenation |
| Proposal.InsertStable | src/pages/Proposal/Proposal.tsx:39 | an inserted venue comes ahead of the venues of equal rating already in the list |
| Proposal.SortIsStable | src/pages/Proposal/Proposal.tsx:39 | venues of equal rating keep their input order, as `Array.prototype.sort` guarantees |
| Proposal.Recommend | src/pages/Proposal/Proposal.tsx:38-40 | at most two venues, all of the activity, non-increasing in rating, a prefix of the sorted list, and the whole list when it has fewer than two |
| Proposal.TopTwoDominates | src/pages/Proposal/Proposal.tsx:39-40 | no matching venue left out of the recommendation is rated above a recommended one |
| Proposal.OnActivity | src/pages/Proposal/Proposal.tsx:33-46 | recommendations are the top two; when a venue matches, the first of the stably sorted matching venues is selected; otherwise the selection is kept |
| Proposal.AutoSelectIsBest | src/pages/Proposal/Proposal.tsx:43-45 | the auto-selected venue is rated at least as high as every venue of the activity |
| Proposal.NoMatchNoSelection | src/pages/Proposal/Proposal.tsx:29-45 | with no venue of the activity nothing is recommended or selected |
| Proposal.HandleSelect | src/pages/Proposal/Proposal.tsx:48-50 | selecting a venue makes it the selection and leaves the recommendations alone |
| Proposal.HandleAccept | src/pages/Proposal/Proposal.tsx:52-67 | no selection only alerts; otherwise the confirmation names the venue and activity and the page moves to `/dashboard` |
| Proposal.AcceptAfterMatch | src/pages/Proposal/Proposal.tsx:43-56 | after the effect has found a venue, accepting always navigates |
| Proposal.ArrivalOrDefault | src/pages/Proposal/Proposal.tsx:17-27 | the passed state is used as is; without it the activity is `ボードゲーム`, with 4 participants, `エンジョイ`, `4-6人` and today's date |
| Proposal.CategoryEmojiDistinct | src/pages/Proposal/Proposal.tsx:74-87 | the four activities have four distinct emoji, each different from the default `📍` shown for anything else |
| Proposal.CategoryEmoji | src/pages/Proposal/Proposal.tsx:74-87 | each of the four activities gets its own emoji, and `📍` is shown exactly for any other category |

## Left out

- **JsNumber.Divide.** Percentages are exact rationals, so the floating-point
  rounding of `current / min * 100` is not modelled. The clamp at 100, the
  monotonicity and the value 100 at or above the minimum do not depend on it.

- **Network calls and their plumbing.** `apiCall`, `fetch`, JSON parsing and the
  base URLs (src/services/api/api.ts, src/services/api/client.ts) are left out;
  a call is an input outcome instead.
- **Sign-in, routing and bootstrapping.**
  - Amplify sign-in, the router and the React root are library glue.
  - The recruiting page's `localStorage` user check, its redirect to `/`, and
    its `userId || '1'` argument are left out; the detail request is an input.
- **Timers.** Intervals, timeouts, their cleanup on unmount and React's effect
  scheduling are left out. The tick and the dwell are events, applied in the
  order given.
- **`Math.random`.** It is the boolean `shouldIncrease`; the 30% probability is
  not modelled.
- **Display arithmetic.** `Math.round`, the SVG dash offsets of the progress
  ring, `toLocaleDateString` and date-fns `format` are rendering only.
- **Seed JSON contents.** `user_calendars.json`, `groups.json` and
  `venues.json` are not part of this model; they are parameters.
- **Presentational components.** Button, Card, Header, Layout, LoadingScreen,
  VenueCard, EventSummary, the activity, intensity and capacity selectors, and
  MonthNavigator hold no decisions.
- **src/components/calendar/Calendar/Calendar.tsx.** Its day grid depends on
  date-fns interval arithmetic and the system clock.
- **Registration side effects.** The loading flag, `console.log` and the alert
  texts of the registration page are left out; the outcome datatypes record
  whether an alert replaces navigation.
- **Other handlers.** The proposal page's `handleDecline` and the matching and
  registration pages' `handleCancel` only navigate to the dashboard. The
  recruiting page's `handleCancel` only reloads the browser window. The
  matching page's `handleContinue` only passes its state on to the proposal
  page.
- **Proposal.Venue.** The optional `priceRange`, `description`, `amenities` and
  `imageUrl` fields are only displayed.
- **Proposal.SortByRating.** A `NaN` rating is not modelled. Ratings are reals,
  and JavaScript comparator results of `NaN` are outside the model.
- **Decimal.IntToString.** `Number.prototype.toString` switches to exponent
  form at 10^21; ids and years are assumed smaller.
- **LexOrder.LessOrEqual.** It compares characters as the model's `char`
  values, not UTF-16 code units. The two agree on the ASCII date strings used.
- **Dashboard.HandleDateSelect.** `URLSearchParams` percent-encoding is not
  modelled. The key and a decimal id are digits and `-`, which it leaves
  untouched.
- **EventForm.InitialForm.** The ISO date of the selected day is a parameter;
  `toISOString` and its UTC shift are not modelled.

=== FILE: calendar_api.dfy ===
/** The seed-backed calendar list queries: filter the bundled user-calendar
    records and project each kept record to `{calenderid, date, status}`.
    The seed records are a parameter; their contents are not part of this
    model. */
module CalendarApi {

  import opened Common
  import opened LexOrder

  /** One record of the bundled user-calendar table. */
  datatype SeedCalendar = SeedCalendar(
    id: int,
    userId: int,
    hobbyId: int,
    groupId: Option<int>,
    date: string,
    timeSlot: string,
    intensity: string,
    attendees: int,
    status: string)

  /** One entry of the list response (the field name keeps the source's
      spelling `calenderid`). */
  datatype CalendarResponse = CalendarResponse(calenderid: int, date: string, status: string)

  /** Which records a query keeps. */
  datatype Query =
    | OfUser(userId: int)
    | OfUserBetween(userId: int, startDate: string, endDate: string)

  predicate Keeps(q: Query, c: SeedCalendar)
  {
    match q
    case OfUser(u) => c.userId == u
    case OfUserBetween(u, lo, hi) => c.userId == u && LessOrEqual(lo, c.date) && LessOrEqual(c.date, hi)
  }

  function Project(c: SeedCalendar): CalendarResponse
  {
    CalendarResponse(c.id, c.date, c.status)
  }

  /** Number of records a query keeps. */
  function CountKept(seed: seq<SeedCalendar>, q: Query): (n: nat)
    ensures n <= |seed|
    decreases |seed|
  {
    if |seed| == 0 then 0
    else (if Keeps(q, seed[0]) then 1 else 0) + CountKept(seed[1..], q)
  }

  /** `seed.filter(keep).map(project)`. */
  function Select(seed: seq<SeedCalendar>, q: Query): (r: seq<CalendarResponse>)
    ensures |r| == CountKept(seed, q)
    ensures forall e :: e in r ==> exists c :: c in seed && Keeps(q, c) && Project(c) == e
    ensures forall c :: c in seed && Keeps(q, c) ==> Project(c) in r
    decreases |seed|
  {
    if |seed| == 0 then []
    else
      var rest := Select(seed[1..], q);
      assert forall c :: c in seed[1..] ==> c in seed;
      assert forall c :: c in seed ==> c == seed[0] || c in seed[1..];
      if Keeps(q, seed[0]) then [Project(seed[0])] + rest else rest
  }

  /** `getUserCalendars(userId)`. */
  function UserCalendars(seed: seq<SeedCalendar>, userId: int): (r: seq<CalendarResponse>)
    ensures |r| <= |seed|
    ensures forall e :: e in r ==> exists c :: c in seed && c.userId == userId && Project(c) == e
    ensures forall c :: c in seed && c.userId == userId ==> Project(c) in r
  {
    Select(seed, OfUser(userId))
  }

  /** `getUserCalendarsByDateRange(userId, startDate, endDate)`: both ends
      inclusive under string ordering. */
  function UserCalendarsByDateRange(seed: seq<SeedCalendar>, userId: int, startDate: string, endDate: string)
    : (r: seq<CalendarResponse>)
    ensures |r| <= |seed|
    ensures forall e :: e in r ==>
      exists c :: c in seed && c.userId == userId && LessOrEqual(startDate, c.date) && LessOrEqual(c.date, endDate)
                  && Project(c) == e
    ensures forall c :: c in seed && c.userId == userId && LessOrEqual(startDate, c.date) && LessOrEqual(c.date, endDate)
                        ==> Project(c) in r
  {
    Select(seed, OfUserBetween(userId, startDate, endDate))
  }

  /** `getUserCalendarsByDate(userId, date)`: the range query with both ends
      at `date`, which keeps exactly the user's records dated `date`. */
  function UserCalendarsByDate(seed: seq<SeedCalendar>, userId: int, date: string): (r: seq<CalendarResponse>)
    ensures forall e :: e in r ==> e.date == date && exists c :: c in seed && c.userId == userId && Project(c) == e
    ensures forall c :: c in seed && c.userId == userId && c.date == date ==> Project(c) in r
  {
    var r := UserCalendarsByDateRange(seed, userId, date, date);
    forall e | e in r
      ensures e.date == date
    {
      var c :| c in seed && c.userId == userId && LessOrEqual(date, c.date) && LessOrEqual(c.date, date) && Project(c) == e;
      AntiSymmetric(date, c.date);
    }
    forall c | c in seed && c.userId == userId && c.date == date
      ensures Project(c) in r
    {
      Reflexive(date);
    }
    r
  }

  /** The query distributes over concatenation of the seed table; with the
      one-record case this pins the result down as the order-preserving
      projection of the kept records. */
  lemma {:induction false} SelectAppend(s: seq<SeedCalendar>, t: seq<SeedCalendar>, q: Query)
    ensures Select(s + t, q) == Select(s, q) + Select(t, q)
    decreases |s|
  {
    if |s| > 0 {
      var head := if Keeps(q, s[0]) then [Project(s[0])] else [];
      assert (s + t)[0] == s[0];
      assert (s + t)[1..] == s[1..] + t;
      assert Select(s + t, q) == head + Select(s[1..] + t, q);
      assert Select(s, q) == head + Select(s[1..], q);
      SelectAppend(s[1..], t, q);
      assert head + (Select(s[1..], q) + Select(t, q)) == (head + Select(s[1..], q)) + Select(t, q);
    } else {
      assert s + t == t;
    }
  }

  lemma SelectSingle(c: SeedCalendar, q: Query)
    ensures Select([c], q) == if Keeps(q, c) then [Project(c)] else []
  {
  }

  /** A user's list has exactly one entry per record of that user. */
  lemma UserCalendarsCount(seed: seq<SeedCalendar>, userId: int)
    ensures |UserCalendars(seed, userId)| == CountKept(seed, OfUser(userId))
  {
  }

  /** A range whose start sorts after its end keeps nothing. */
  lemma {:induction false} EmptyRange(seed: seq<SeedCalendar>, userId: int, startDate: string, endDate: string)
    requires !LessOrEqual(startDate, endDate)
    ensures UserCalendarsByDateRange(seed, userId, startDate, endDate) == []
  {
    var r := UserCalendarsByDateRange(seed, userId, startDate, endDate);
    if |r| > 0 {
      assert r[0] in r;
      var c :| c in seed && c.userId == userId && LessOrEqual(startDate, c.date) && LessOrEqual(c.date, endDate)
               && Project(c) == r[0];
      Transitive(startDate, c.date, endDate);
    }
  }

  /** The single-date query has one entry per record of the user on that
      date. */
  lemma {:induction false} UserCalendarsByDateCount(seed: seq<SeedCalendar>, userId: int, date: string)
    ensures |UserCalendarsByDate(seed, userId, date)| == CountOnDate(seed, userId, date)
    decreases |seed|
  {
    if |seed| > 0 {
      UserCalendarsByDateCount(seed[1..], userId, date);
      var c := seed[0];
      Reflexive(date);
      if LessOrEqual(date, c.date) && LessOrEqual(c.date, date) {
        AntiSymmetric(date, c.date);
      }
    }
  }

  /** Number of the user's records dated exactly `date`. */
  function CountOnDate(seed: seq<SeedCalendar>, userId: int, date: string): (n: nat)
    ensures n <= |seed|
    decreases |seed|
  {
    if |seed| == 0 then 0
    else (if seed[0].userId == userId && seed[0].date == date then 1 else 0) + CountOnDate(seed[1..], userId, date)
  }
}

=== FILE: common.dfy ===
/** Shared vocabulary: optional values, the outcome of a fetch, and the
    first-match lookup that JavaScript's `Array.prototype.find` performs. */
module Common {

  /** A value that may be absent (`null` / `undefined` in the source). */
  datatype Option<+T> = None | Some(value: T)

  /** The outcome of a remote call: either the decoded body, or a failure of
      any kind (transport error, non-2xx status, malformed JSON). */
  datatype Fetch<+T> = Fetched(body: T) | FetchFailed

  /** `i` is the first index of `s` whose element satisfies `p`. */
  ghost predicate IsFirstMatch<T>(s: seq<T>, p: T -> bool, i: int)
  {
    0 <= i < |s| && p(s[i]) && forall j :: 0 <= j < i ==> !p(s[j])
  }

  /** `s.findIndex(p)`, with "not found" as `None` rather than -1. */
  function FindIndex<T>(s: seq<T>, p: T -> bool): (r: Option<nat>)
    ensures r.None? <==> forall i :: 0 <= i < |s| ==> !p(s[i])
    ensures r.Some? ==> IsFirstMatch(s, p, r.value)
    decreases |s|
  {
    if |s| == 0 then None
    else if p(s[0]) then Some(0)
    else
      match FindIndex(s[1..], p)
      case None => None
      case Some(k) =>
        assert s[1..][k] == s[k + 1];
        Some(k + 1)
  }

  /** `s.find(p)`: the first element that satisfies `p`, if any. */
  function Find<T>(s: seq<T>, p: T -> bool): (r: Option<T>)
    ensures r.None? <==> forall i :: 0 <= i < |s| ==> !p(s[i])
    ensures r.Some? ==> exists i :: IsFirstMatch(s, p, i) && s[i] == r.value
  {
    match FindIndex(s, p)
    case None => None
    case Some(i) => Some(s[i])
  }

  /** Whatever follows a match in the sequence is irrelevant: later duplicates
      never change the result of `find`. */
  lemma {:induction false} FindIgnoresSuffix<T>(s: seq<T>, t: seq<T>, p: T -> bool)
    requires Find(s, p).Some?
    ensures Find(s + t, p) == Find(s, p)
    decreases |s|
  {
    if !p(s[0]) {
      assert (s + t)[1..] == s[1..] + t;
      FindIgnoresSuffix(s[1..], t, p);
    }
  }
}

=== FILE: dashboard.dfy ===
/** The dashboard's date selection: build the `YYYY-MM-DD` key of the chosen
    day, take the first calendar entry with that date, choose the page from
    its status and append the `date` and `calendarId` query parameters. */
module Dashboard {

  import opened Common
  import opened Decimal
  import opened SlotStatus
  import opened DateKey
  import opened CalendarApi

  /** The signed-in user the dashboard loads the calendar list for. */
  const CurrentUserId: int := 1

  /** The calendar list the dashboard shows: the current user's entries. */
  function LoadCalendars(seed: seq<SeedCalendar>): (r: seq<CalendarResponse>)
    ensures forall e :: e in r ==> exists c :: c in seed && c.userId == CurrentUserId && Project(c) == e
    ensures forall c :: c in seed && c.userId == CurrentUserId ==> Project(c) in r
  {
    UserCalendars(seed, CurrentUserId)
  }

  /** The predicate the lookup passes to `find`. */
  function DateIs(key: string): CalendarResponse -> bool
  {
    (c: CalendarResponse) => c.date == key
  }

  /** The entry the dashboard acts on for a key: the first with that date. */
  function SelectedCalendar(calendars: seq<CalendarResponse>, key: string): (r: Option<CalendarResponse>)
    ensures r.None? <==> forall i :: 0 <= i < |calendars| ==> calendars[i].date != key
    ensures r.Some? ==> exists i :: IsFirstMatch(calendars, DateIs(key), i) && calendars[i] == r.value
  {
    Find(calendars, DateIs(key))
  }

  /** The page for the status of the selected entry (`None` when there is no
      entry for the day). */
  function PathFor(status: Option<Status>): (path: string)
    ensures path == "/recruiting" <==> status == Some(Recruiting)
    ensures path == "/proposal" <==> status == Some(Matched)
    ensures path == "/register" <==> status != Some(Recruiting) && status != Some(Matched)
    ensures '?' !in path
  {
    match status
    case Some(Recruiting) => "/recruiting"
    case Some(Matched) => "/proposal"
    case _ => "/register"
  }

  /** Where a date selection leads, before it is rendered as a URL. */
  datatype Navigation = Navigation(path: string, date: string, calendarId: Option<string>)

  function StatusOf(e: Option<CalendarResponse>): Option<Status>
  {
    match e
    case None => None
    case Some(c) => Some(Parse(c.status))
  }

  function Target(calendars: seq<CalendarResponse>, day: Day): (n: Navigation)
    ensures n.date == Key(day)
    ensures n.calendarId.Some? <==> exists i :: 0 <= i < |calendars| && calendars[i].date == Key(day)
    ensures forall i :: IsFirstMatch(calendars, DateIs(Key(day)), i) ==>
                          && n.calendarId == Some(IntToString(calendars[i].calenderid))
                          && n.path == PathFor(Some(Parse(calendars[i].status)))
    ensures n.calendarId.None? ==> n.path == "/register"
  {
    var key := Key(day);
    var selected := SelectedCalendar(calendars, key);
    var id := match selected
      case None => None
      case Some(c) => Some(IntToString(c.calenderid));
    Navigation(PathFor(StatusOf(selected)), key, id)
  }

  /** `${path}?${params}` with `date` set first and `calendarId` appended only
      when present. The values are digits and dashes, which URL form encoding
      leaves unchanged. */
  function Url(n: Navigation): (u: string)
    ensures '?' !in n.path && '&' !in n.date ==> ParseUrl(u) == Some(n)
  {
    var query := "date=" + n.date + match n.calendarId
      case None => ""
      case Some(id) => "&calendarId=" + id;
    var u := n.path + "?" + query;
    if '?' in n.path || '&' in n.date then u
    else
      QueryRoundTrip(n.path, n.date, n.calendarId, query);
      u
  }

  /** `handleDateSelect`: the URL the dashboard navigates to. */
  function HandleDateSelect(calendars: seq<CalendarResponse>, day: Day): (url: string)
    ensures ParseUrl(url) == Some(Target(calendars, day))
  {
    var n := Target(calendars, day);
    assert '?' !in n.path && '&' !in n.date;
    Url(n)
  }

  /** The text before the first `c`, and what follows it if `c` occurs. */
  function SplitFirst(s: string, c: char): (string, Option<string>)
    decreases |s|
  {
    if |s| == 0 then ("", None)
    else if s[0] == c then ("", Some(s[1..]))
    else
      var (before, after) := SplitFirst(s[1..], c);
      ([s[0]] + before, after)
  }

  /** Reads a URL back into the page and its two parameters. */
  function ParseUrl(url: string): Option<Navigation>
  {
    match SplitFirst(url, '?')
    case (_, None) => None
    case (path, Some(query)) =>
      if |query| < 5 || query[..5] != "date=" then None
      else
        match SplitFirst(query[5..], '&')
        case (date, None) => Some(Navigation(path, date, None))
        case (date, Some(rest)) =>
          if |rest| < 11 || rest[..11] != "calendarId=" then None
          else Some(Navigation(path, date, Some(rest[11..])))
  }

  lemma {:induction false} SplitFirstAt(a: string, c: char, b: string)
    requires c !in a
    ensures SplitFirst(a + [c] + b, c) == (a, Some(b))
    decreases |a|
  {
    if |a| == 0 {
      assert a + [c] + b == [c] + b;
    } else {
      assert (a + [c] + b)[1..] == a[1..] + [c] + b;
      SplitFirstAt(a[1..], c, b);
      assert [a[0]] + a[1..] == a;
    }
  }

  lemma {:induction false} SplitFirstAbsent(a: string, c: char)
    requires c !in a
    ensures SplitFirst(a, c) == (a, None)
    decreases |a|
  {
    if |a| > 0 {
      SplitFirstAbsent(a[1..], c);
      assert [a[0]] + a[1..] == a;
    }
  }

  /** The query built from a date and an optional calendar id, after a page
      without `?`, reads back as that page, date and id, so `date` precedes
      `calendarId`. */
  lemma QueryRoundTrip(path: string, date: string, calendarId: Option<string>, query: string)
    requires '?' !in path
    requires '&' !in date
    requires query == "date=" + date + match calendarId
      case None => ""
      case Some(id) => "&calendarId=" + id
    ensures ParseUrl(path + "?" + query) == Some(Navigation(path, date, calendarId))
  {
    assert path + "?" + query == path + ['?'] + query;
    SplitFirstAt(path, '?', query);
    assert query[..5] == "date=";
    assert query[5..] == date + match calendarId
      case None => ""
      case Some(id) => "&calendarId=" + id;
    match calendarId {
      case None =>
        assert query[5..] == date;
        SplitFirstAbsent(date, '&');
      case Some(id) =>
        assert query[5..] == date + ['&'] + ("calendarId=" + id);
        SplitFirstAt(date, '&', "calendarId=" + id);
        assert ("calendarId=" + id)[11..] == id;
    }
  }

  /** Entries after the first one for the selected day do not influence the
      navigation. */
  lemma TargetIgnoresLaterEntries(calendars: seq<CalendarResponse>, more: seq<CalendarResponse>, day: Day)
    requires exists i :: 0 <= i < |calendars| && calendars[i].date == Key(day)
    ensures Target(calendars + more, day) == Target(calendars, day)
  {
    FindIgnoresSuffix(calendars, more, DateIs(Key(day)));
  }
}

=== FILE: date_key.dfy ===
/** The `YYYY-MM-DD` key the dashboard and both calendar components build from
    a selected `Date`: the full year, then the month and the day of the month,
    each zero-padded to two characters, joined by `-`. */
module DateKey {

  import opened Common
  import opened Decimal

  /** A calendar day as `getFullYear()`, `getMonth() + 1` and `getDate()`
      report it. */
  datatype Day = Day(year: int, month: int, day: int)

  /** What a JavaScript `Date` guarantees of its month and day-of-month. */
  predicate ValidDay(d: Day)
  {
    1 <= d.month <= 12 && 1 <= d.day <= 31
  }

  function Repeat(c: char, n: nat): (r: string)
    ensures |r| == n
    ensures forall i :: 0 <= i < n ==> r[i] == c
  {
    seq(n, _ => c)
  }

  /** `s.padStart(width, fill)` with a one-character fill. */
  function PadStart(s: string, width: nat, fill: char): (r: string)
    ensures |r| == if |s| < width then width else |s|
    ensures r[|r| - |s|..] == s
    ensures forall i :: 0 <= i < |r| - |s| ==> r[i] == fill
  {
    if |s| < width then Repeat(fill, width - |s|) + s else s
  }

  /** Two-character zero-padded rendering of a month or day. */
  function TwoDigits(n: int): string
  {
    PadStart(IntToString(n), 2, '0')
  }

  /** Characters a key is made of. */
  predicate KeyChars(s: string)
  {
    forall i :: 0 <= i < |s| ==> IsDigit(s[i]) || s[i] == '-'
  }

  lemma KeyCharsConcat(a: string, b: string)
    requires KeyChars(a) && KeyChars(b)
    ensures KeyChars(a + b)
  {
    forall i | 0 <= i < |a + b| ensures IsDigit((a + b)[i]) || (a + b)[i] == '-' {
      if i < |a| {
        assert (a + b)[i] == a[i];
      } else {
        assert (a + b)[i] == b[i - |a|];
      }
    }
  }

  lemma TwoDigitsChars(n: int)
    ensures KeyChars(TwoDigits(n))
  {
    var s := IntToString(n);
    var r := TwoDigits(n);
    forall i | 0 <= i < |r| ensures IsDigit(r[i]) || r[i] == '-' {
      if i >= |r| - |s| {
        assert r[i] == r[|r| - |s|..][i - (|r| - |s|)];
      }
    }
  }

  /** The lookup key of a day. */
  function Key(d: Day): (k: string)
    ensures KeyChars(k)
  {
    var y := IntToString(d.year);
    TwoDigitsChars(d.month);
    TwoDigitsChars(d.day);
    KeyCharsConcat(y, "-");
    KeyCharsConcat(y + "-", TwoDigits(d.month));
    KeyCharsConcat(y + "-" + TwoDigits(d.month), "-");
    KeyCharsConcat(y + "-" + TwoDigits(d.month) + "-", TwoDigits(d.day));
    y + "-" + TwoDigits(d.month) + "-" + TwoDigits(d.day)
  }

  /** Reads a key back from its end: the last two characters are the day,
      the two before the second-to-last dash the month, the rest the year. */
  function ParseKey(k: string): (r: Option<Day>)
  {
    if |k| < 7 || k[|k| - 3] != '-' || k[|k| - 6] != '-' then None
    else Some(Day(ParseInt(k[..|k| - 6]), ParseNat(k[|k| - 5..|k| - 3]), ParseNat(k[|k| - 2..])))
  }

  /** A month or day below 100 pads to exactly two digits that read back as
      the number itself. */
  lemma TwoDigitsRoundTrip(n: int)
    requires 0 <= n < 100
    ensures |TwoDigits(n)| == 2
    ensures ParseNat(TwoDigits(n)) == n
  {
    var s := NatToString(n);
    ParseNatToString(n);
    if n < 10 {
      assert TwoDigits(n) == ['0'] + s;
      assert TwoDigits(n)[..1] == ['0'];
    }
  }

  /** Where the parts of `y-mm-dd` sit, counted from the end. */
  lemma KeyLayout(y: string, mm: string, dd: string)
    requires |mm| == 2 && |dd| == 2
    ensures var k := y + "-" + mm + "-" + dd;
            && |k| == |y| + 6
            && k[..|k| - 6] == y && k[|k| - 6] == '-'
            && k[|k| - 5..|k| - 3] == mm && k[|k| - 3] == '-'
            && k[|k| - 2..] == dd
  {
  }

  /** The key of a day reads back as that day: two different days never share
      a key, so looking a day up by its key is looking it up by the day. */
  lemma ParseKeyOfKey(d: Day)
    requires ValidDay(d)
    ensures ParseKey(Key(d)) == Some(d)
  {
    var y, mm, dd := IntToString(d.year), TwoDigits(d.month), TwoDigits(d.day);
    TwoDigitsRoundTrip(d.month);
    TwoDigitsRoundTrip(d.day);
    ParseIntToString(d.year);
    KeyLayout(y, mm, dd);
    var k := Key(d);
    assert k == y + "-" + mm + "-" + dd;
    assert ParseKey(k) == Some(Day(ParseInt(y), ParseNat(mm), ParseNat(dd)));
  }

  lemma KeyInjective(d: Day, e: Day)
    requires ValidDay(d) && ValidDay(e)
    requires Key(d) == Key(e)
    ensures d == e
  {
    ParseKeyOfKey(d);
    ParseKeyOfKey(e);
  }

  /** For a four-digit year the key is exactly ten characters, with the dashes
      at positions 4 and 7. */
  lemma KeyShape(d: Day)
    requires ValidDay(d) && 1000 <= d.year <= 9999
    ensures |Key(d)| == 10
    ensures Key(d)[4] == '-' && Key(d)[7] == '-'
  {
    assert IntToString(d.year) == NatToString(d.year);
    TwoDigitsRoundTrip(d.month);
    TwoDigitsRoundTrip(d.day);
    KeyLayout(IntToString(d.year), TwoDigits(d.month), TwoDigits(d.day));
  }
}

=== FILE: decimal.dfy ===
/** Decimal rendering of integers, as JavaScript's `String(n)` and
    `n.toString()` produce it for integral numbers, together with the inverse
    reading used to state that the rendering loses nothing. */
module Decimal {

  predicate IsDigit(c: char)
  {
    '0' <= c <= '9'
  }

  /** The character of a single decimal digit. */
  function DigitChar(d: nat): (c: char)
    requires d < 10
    ensures IsDigit(c)
  {
    (('0' as int) + d) as char
  }

  /** The value of a digit character; 0 for anything else. */
  function DigitValue(c: char): (d: nat)
    ensures d < 10
  {
    if IsDigit(c) then (c as int) - ('0' as int) else 0
  }

  lemma DigitRoundTrip(d: nat)
    requires d < 10
    ensures DigitValue(DigitChar(d)) == d
  {
  }

  /** Decimal digits of `n`, most significant first, without leading zeros. */
  function NatToString(n: nat): (s: string)
    ensures 1 <= |s|
    ensures forall i :: 0 <= i < |s| ==> IsDigit(s[i])
    ensures n < 10 <==> |s| == 1
    ensures 10 <= n < 100 <==> |s| == 2
    ensures 1000 <= n < 10000 <==> |s| == 4
    ensures s[0] == '0' ==> n == 0
    decreases n
  {
    if n < 10 then [DigitChar(n)] else NatToString(n / 10) + [DigitChar(n % 10)]
  }

  /** Reads a string of decimal digits back into a number. */
  function ParseNat(s: string): nat
    decreases |s|
  {
    if |s| == 0 then 0 else ParseNat(s[..|s| - 1]) * 10 + DigitValue(s[|s| - 1])
  }

  /** `String(i)` for an integral JavaScript number. */
  function IntToString(i: int): (s: string)
    ensures 1 <= |s|
    ensures forall k :: 0 <= k < |s| ==> IsDigit(s[k]) || s[k] == '-'
    ensures '-' in s <==> i < 0
    ensures s[0] == '-' <==> i < 0
    ensures '-' !in s[1..]
    ensures s[0] == '0' ==> i == 0
    ensures i < 0 ==> |s| >= 2 && s[1] != '0'
  {
    if i < 0 then "-" + NatToString(-i) else NatToString(i)
  }

  function ParseInt(s: string): int
  {
    if 0 < |s| && s[0] == '-' then -(ParseNat(s[1..]) as int) else ParseNat(s)
  }

  /** Reading back the decimal rendering of a natural number gives the number. */
  lemma {:induction false} ParseNatToString(n: nat)
    ensures ParseNat(NatToString(n)) == n
    decreases n
  {
    var s := NatToString(n);
    if n < 10 {
      DigitRoundTrip(n);
    } else {
      assert s[..|s| - 1] == NatToString(n / 10);
      ParseNatToString(n / 10);
      DigitRoundTrip(n % 10);
    }
  }

  /** Reading back `String(i)` gives `i`; in particular distinct integers
      render as distinct strings. */
  lemma ParseIntToString(i: int)
    ensures ParseInt(IntToString(i)) == i
  {
    if i < 0 {
      assert IntToString(i)[1..] == NatToString(-i);
      ParseNatToString(-i);
    } else {
      ParseNatToString(i);
    }
  }

  lemma IntToStringInjective(i: int, j: int)
    requires IntToString(i) == IntToString(j)
    ensures i == j
  {
    ParseIntToString(i);
    ParseIntToString(j);
  }
}

=== FILE: event_form.dfy ===
/** The event form: its initial state, one change handler per field, the
    submit guard and the validity flag that enables the submit button. */
module EventForm {

  import opened Common
  import GroupSize

  datatype FormData = FormData(date: string, activity: string, intensity: string, groupSize: int, totalCapacity: string)

  const InitialGroupSize: int := 2
  const MinGroupSize: int := 1
  const MaxGroupSize: int := 8
  const MatchingPath: string := "/matching"

  /** The initial form for the selected day; `date` is the ISO date of the
      selected (or current) day, which is given rather than read from a
      clock. */
  function InitialForm(date: string): (f: FormData)
    ensures f.date == date && f.groupSize == InitialGroupSize
    ensures f.activity == "" && f.intensity == "" && f.totalCapacity == ""
  {
    FormData(date, "", "", InitialGroupSize, "")
  }

  /** One change event: which handler fired and with what value. */
  datatype Edit =
    | ActivityChanged(activity: string)
    | IntensityChanged(intensity: string)
    | GroupSizeChanged(groupSize: int)
    | CapacityChanged(totalCapacity: string)

  /** The handler's state update: only the edited field changes. */
  function ApplyEdit(f: FormData, e: Edit): (g: FormData)
    ensures g.date == f.date
    ensures g.activity == (if e.ActivityChanged? then e.activity else f.activity)
    ensures g.intensity == (if e.IntensityChanged? then e.intensity else f.intensity)
    ensures g.groupSize == (if e.GroupSizeChanged? then e.groupSize else f.groupSize)
    ensures g.totalCapacity == (if e.CapacityChanged? then e.totalCapacity else f.totalCapacity)
  {
    match e
    case ActivityChanged(a) => f.(activity := a)
    case IntensityChanged(i) => f.(intensity := i)
    case GroupSizeChanged(n) => f.(groupSize := n)
    case CapacityChanged(c) => f.(totalCapacity := c)
  }

  /** `isFormValid`: JavaScript truthiness of the three selections. The
      submit button it enables is live exactly when submitting navigates. */
  predicate IsFormValid(f: FormData)
    ensures IsFormValid(f) <==> HandleSubmit(f).Some?
  {
    f.activity != "" && f.intensity != "" && f.totalCapacity != ""
  }

  /** The navigation `handleSubmit` performs: to the matching page with the
      form as state, or nothing (an alert) when a selection is missing. */
  datatype Submission = Submission(path: string, eventData: FormData)

  function HandleSubmit(f: FormData): (r: Option<Submission>)
    ensures r.Some? <==> f.activity != "" && f.intensity != "" && f.totalCapacity != ""
    ensures r.Some? ==> r.value.path == MatchingPath && r.value.eventData == f
  {
    if f.activity == "" || f.intensity == "" || f.totalCapacity == "" then None
    else Some(Submission(MatchingPath, f))
  }

  /** The initial form is not yet submittable, and becomes submittable once
      the three selections are made, whatever their order. */
  lemma InitialFormNeedsThreeSelections(date: string, a: string, i: string, c: string)
    requires a != "" && i != "" && c != ""
    ensures HandleSubmit(InitialForm(date)).None?
    ensures HandleSubmit(ApplyEdit(ApplyEdit(ApplyEdit(InitialForm(date), CapacityChanged(c)), ActivityChanged(a)), IntensityChanged(i))).Some?
  {
  }

  /** A click on the group-size selector (bounded to `[1, 8]` on this page)
      followed by the change handler. */
  function ClickGroupSize(f: FormData, click: GroupSize.Click): FormData
  {
    var n := GroupSize.Apply(f.groupSize, MinGroupSize, MaxGroupSize, click);
    if n == f.groupSize then f else ApplyEdit(f, GroupSizeChanged(n))
  }

  function ClickAll(f: FormData, clicks: seq<GroupSize.Click>): FormData
    decreases |clicks|
  {
    if |clicks| == 0 then f else ClickAll(ClickGroupSize(f, clicks[0]), clicks[1..])
  }

  /** From any form whose group size is within `[1, 8]` (the initial one
      included), any sequence of selector clicks keeps the size in those
      bounds and leaves every other field alone. */
  lemma {:induction false} GroupSizeStaysInBounds(f: FormData, clicks: seq<GroupSize.Click>)
    requires MinGroupSize <= f.groupSize <= MaxGroupSize
    ensures MinGroupSize <= ClickAll(f, clicks).groupSize <= MaxGroupSize
    ensures ClickAll(f, clicks).(groupSize := f.groupSize) == f
    decreases |clicks|
  {
    if |clicks| > 0 {
      GroupSizeStaysInBounds(ClickGroupSize(f, clicks[0]), clicks[1..]);
    }
  }
}

=== FILE: group_size.dfy ===
/** The group-size stepper: `+` and `−` buttons that report `size ± 1` to the
    parent only while the size is inside the selector's bounds, and are
    disabled at the bounds. The parent stores whatever is reported. */
module GroupSize {

  import opened Common

  const DefaultMinSize: int := 1
  const DefaultMaxSize: int := 10

  predicate DecrementDisabled(size: int, minSize: int)
  {
    size <= minSize
  }

  predicate IncrementDisabled(size: int, maxSize: int)
  {
    size >= maxSize
  }

  /** `handleIncrement`: the value reported to the parent, if any. */
  function Increment(size: int, maxSize: int): (r: Option<int>)
    ensures r.Some? <==> !IncrementDisabled(size, maxSize)
    ensures r.Some? ==> r.value == size + 1 && r.value <= maxSize
  {
    if size < maxSize then Some(size + 1) else None
  }

  /** `handleDecrement`: the value reported to the parent, if any. */
  function Decrement(size: int, minSize: int): (r: Option<int>)
    ensures r.Some? <==> !DecrementDisabled(size, minSize)
    ensures r.Some? ==> r.value == size - 1 && r.value >= minSize
  {
    if size > minSize then Some(size - 1) else None
  }

  datatype Click = Plus | Minus

  /** The size the parent holds after one click. */
  function Apply(size: int, minSize: int, maxSize: int, click: Click): (next: int)
    ensures minSize <= size <= maxSize ==> minSize <= next <= maxSize
    ensures next == size || next == size + 1 || next == size - 1
  {
    var reported := match click
      case Plus => Increment(size, maxSize)
      case Minus => Decrement(size, minSize);
    match reported
    case Some(v) => v
    case None => size
  }

  function ApplyAll(size: int, minSize: int, maxSize: int, clicks: seq<Click>): int
    decreases |clicks|
  {
    if |clicks| == 0 then size else ApplyAll(Apply(size, minSize, maxSize, clicks[0]), minSize, maxSize, clicks[1..])
  }

  /** A size inside the bounds stays inside them whatever is clicked. */
  lemma {:induction false} ApplyAllInBounds(size: int, minSize: int, maxSize: int, clicks: seq<Click>)
    requires minSize <= size <= maxSize
    ensures minSize <= ApplyAll(size, minSize, maxSize, clicks) <= maxSize
    decreases |clicks|
  {
    if |clicks| > 0 {
      ApplyAllInBounds(Apply(size, minSize, maxSize, clicks[0]), minSize, maxSize, clicks[1..]);
    }
  }

  /** A selector left at its default bounds keeps a size in `[1, 10]` there,
      and a click moves the size at most one step. */
  lemma DefaultBoundsInRange(size: int, clicks: seq<Click>)
    requires DefaultMinSize <= size <= DefaultMaxSize
    ensures DefaultMinSize <= ApplyAll(size, DefaultMinSize, DefaultMaxSize, clicks) <= DefaultMaxSize
    ensures |clicks| == 1 ==> -1 <= ApplyAll(size, DefaultMinSize, DefaultMaxSize, clicks) - size <= 1
  {
    ApplyAllInBounds(size, DefaultMinSize, DefaultMaxSize, clicks);
  }
}

=== FILE: hobbies.dfy ===
/** The hobby catalogue as the recruiting and registration pages hold it:
    the fetched list, an empty list when the response body is empty, or a
    fixed four-entry list when the fetch fails. */
module Hobbies {

  import opened Common

  datatype Hobby = Hobby(hobbyId: string, name: string)

  /** The list both pages fall back to. */
  const FallbackHobbies: seq<Hobby> := [
    Hobby("1", "ボードゲーム"),
    Hobby("2", "バレーボール"),
    Hobby("3", "カラオケ"),
    Hobby("4", "映画鑑賞")
  ]

  /** The hobby list after the fetch settles; a `None` body is a `null` or
      missing response, which `response || []` turns into the empty list. */
  function HobbiesAfterFetch(outcome: Fetch<Option<seq<Hobby>>>): (hobbies: seq<Hobby>)
    ensures outcome.FetchFailed? ==>
              |hobbies| == 4 && forall i :: 0 <= i < 4 ==> hobbies[i].hobbyId == [('1' as int + i) as char]
    ensures outcome == Fetched(None) ==> hobbies == []
    ensures outcome.Fetched? && outcome.body.Some? ==> hobbies == outcome.body.value
  {
    match outcome
    case FetchFailed => FallbackHobbies
    case Fetched(None) => []
    case Fetched(Some(h)) => h
  }

  /** The fallback ids are distinct, so each fallback hobby is found by its
      own id. */
  lemma FallbackIdsDistinct()
    ensures forall i, j :: 0 <= i < j < |FallbackHobbies| ==> FallbackHobbies[i].hobbyId != FallbackHobbies[j].hobbyId
  {
  }
}

=== FILE: js_number.dfy ===
/** The few JavaScript number operations the progress displays use, over
    exact rationals: division (which yields an infinity or NaN for a zero
    divisor instead of failing), scaling by a positive constant, and
    `Math.min` against a finite bound. */
module JsNumber {

  datatype Num = Finite(value: real) | PosInfinity | NegInfinity | NaN

  /** `a / b` for finite operands. */
  function Divide(a: real, b: real): (r: Num)
    ensures b != 0.0 ==> r == Finite(a / b)
    ensures b == 0.0 ==> (a > 0.0 <==> r == PosInfinity)
    ensures b == 0.0 ==> (a < 0.0 <==> r == NegInfinity)
    ensures b == 0.0 ==> (a == 0.0 <==> r == NaN)
  {
    if b != 0.0 then Finite(a / b)
    else if a > 0.0 then PosInfinity
    else if a < 0.0 then NegInfinity
    else NaN
  }

  /** `n * k` for a positive finite `k`. */
  function Scale(n: Num, k: real): (r: Num)
    requires k > 0.0
    ensures n.Finite? <==> r.Finite?
    ensures n.Finite? ==> r.value == n.value * k
    ensures !n.Finite? ==> r == n
  {
    match n
    case Finite(v) => Finite(v * k)
    case _ => n
  }

  /** `Math.min(n, bound)` for a finite `bound`. */
  function Min(n: Num, bound: real): (r: Num)
    ensures r.Finite? ==> r.value <= bound
    ensures n.Finite? ==> r == Finite(if n.value <= bound then n.value else bound)
    ensures n == PosInfinity ==> r == Finite(bound)
    ensures n == NegInfinity ==> r == NegInfinity
    ensures n == NaN ==> r == NaN
  {
    match n
    case Finite(v) => Finite(if v <= bound then v else bound)
    case PosInfinity => Finite(bound)
    case NegInfinity => NegInfinity
    case NaN => NaN
  }
}

=== FILE: lex_order.dfy ===
/** JavaScript's `<=` on strings: lexicographic comparison character by
    character, a proper prefix ordering before its extensions. (Dafny's own
    `<=` on sequences is the prefix relation, so it cannot be used here.) */
module LexOrder {

  predicate LessOrEqual(a: string, b: string)
    ensures a <= b ==> LessOrEqual(a, b)
    decreases |a|
  {
    |a| == 0 || (0 < |b| && (a[0] < b[0] || (a[0] == b[0] && LessOrEqual(a[1..], b[1..]))))
  }

  lemma {:induction false} Reflexive(a: string)
    ensures LessOrEqual(a, a)
    decreases |a|
  {
    if 0 < |a| {
      Reflexive(a[1..]);
    }
  }

  lemma {:induction false} AntiSymmetric(a: string, b: string)
    requires LessOrEqual(a, b) && LessOrEqual(b, a)
    ensures a == b
    decreases |a|
  {
    if 0 < |a| {
      AntiSymmetric(a[1..], b[1..]);
      assert a == [a[0]] + a[1..];
      assert b == [b[0]] + b[1..];
    }
  }

  lemma {:induction false} Transitive(a: string, b: string, c: string)
    requires LessOrEqual(a, b) && LessOrEqual(b, c)
    ensures LessOrEqual(a, c)
    decreases |a|
  {
    if 0 < |a| && a[0] == b[0] && b[0] == c[0] {
      Transitive(a[1..], b[1..], c[1..]);
    }
  }

  /** At the first position where two strings differ, the smaller
      character decides; a common prefix does not. */
  lemma {:induction false} FirstDifference(a: string, b: string, k: nat)
    requires k < |a| && k < |b| && a[..k] == b[..k] && a[k] != b[k]
    ensures LessOrEqual(a, b) <==> a[k] < b[k]
    decreases k
  {
    if 0 < k {
      assert a[0] == a[..k][0] && b[0] == b[..k][0];
      assert a[1..][..k - 1] == a[..k][1..] && b[1..][..k - 1] == b[..k][1..];
      FirstDifference(a[1..], b[1..], k - 1);
    }
  }

  /** A proper extension orders after the string it extends. */
  lemma ExtensionAfter(a: string, b: string)
    requires 0 < |b|
    ensures LessOrEqual(a, a + b) && !LessOrEqual(a + b, a)
  {
    assert a <= a + b;
    NotLongerThanPrefix(a, b);
  }

  lemma {:induction false} NotLongerThanPrefix(a: string, b: string)
    requires 0 < |b|
    ensures !LessOrEqual(a + b, a)
    decreases |a|
  {
    if 0 < |a| {
      assert (a + b)[0] == a[0] && (a + b)[1..] == a[1..] + b;
      NotLongerThanPrefix(a[1..], b);
    }
  }

  lemma {:induction false} Total(a: string, b: string)
    ensures LessOrEqual(a, b) || LessOrEqual(b, a)
    decreases |a|
  {
    if 0 < |a| && 0 < |b| && a[0] == b[0] {
      Total(a[1..], b[1..]);
    }
  }
}

=== FILE: lifecycle.dfy ===
/** The matching phase shown by the recruiting and matching pages, and the
    dwell transition both pages schedule once the phase is `found`: a timer
    that, when it fires, sets the phase to `matched`. Timers are events here:
    `DwellElapsed` is delivered only while a timer is pending, that is, while
    the phase is `found`; in any other phase no timer exists and the event
    changes nothing. */
module Lifecycle {

  datatype Phase = Searching | Found | Matched

  /** The phase as the pages spell it. */
  function PhaseName(p: Phase): string
  {
    match p
    case Searching => "searching"
    case Found => "found"
    case Matched => "matched"
  }

  /** The effect of the dwell timer on the phase. */
  function Dwell(p: Phase): (q: Phase)
    ensures p == Found ==> q == Matched
    ensures p != Found ==> q == p
    ensures q != Found
  {
    if p == Found then Matched else p
  }
}

=== FILE: matching.dfy ===
/** The matching page's simulated engine: every interval tick a random draw
    (`Math.random() > 0.7`, here the boolean `shouldIncrease`) may add one
    participant while the minimum is not reached; reaching it shows `found`,
    and the dwell timer then shows `matched`. */
module Matching {

  import opened Lifecycle

  datatype SimState = SimState(currentParticipants: int, minParticipants: int, phase: Phase, isAnimating: bool)

  /** One participant (the user) out of a minimum of four, searching. */
  const InitialSim: SimState := SimState(1, 4, Searching, false)

  /** The interval callback. */
  function Tick(s: SimState, shouldIncrease: bool): (t: SimState)
    ensures t.minParticipants == s.minParticipants
    ensures s.currentParticipants < s.minParticipants && shouldIncrease ==>
              && t.currentParticipants == s.currentParticipants + 1
              && (t.phase == Found <==> t.currentParticipants >= t.minParticipants)
              && (t.phase == Searching <==> t.currentParticipants < t.minParticipants)
              && t.isAnimating
    ensures !(s.currentParticipants < s.minParticipants && shouldIncrease) ==> t == s.(isAnimating := false)
  {
    if s.currentParticipants < s.minParticipants && shouldIncrease then
      var n := s.currentParticipants + 1;
      s.(currentParticipants := n, phase := if n >= s.minParticipants then Found else Searching, isAnimating := true)
    else
      s.(isAnimating := false)
  }

  /** The dwell timer: only the phase moves, from `found` to `matched`. */
  function OnDwell(s: SimState): (t: SimState)
    ensures s.phase == Found ==> t == s.(phase := Matched)
    ensures s.phase != Found ==> t == s
  {
    s.(phase := Dwell(s.phase))
  }

  datatype SimEvent = TickEvent(shouldIncrease: bool) | DwellElapsed

  function Step(s: SimState, ev: SimEvent): SimState
  {
    match ev
    case TickEvent(b) => Tick(s, b)
    case DwellElapsed => OnDwell(s)
  }

  function Run(s: SimState, evs: seq<SimEvent>): SimState
    decreases |evs|
  {
    if |evs| == 0 then s else Run(Step(s, evs[0]), evs[1..])
  }

  /** Over any run the minimum is untouched, the participant count never
      decreases, and a count that starts at or below the minimum never
      passes it. */
  lemma {:induction false} RunBounds(s: SimState, evs: seq<SimEvent>)
    ensures Run(s, evs).minParticipants == s.minParticipants
    ensures Run(s, evs).currentParticipants >= s.currentParticipants
    ensures s.currentParticipants <= s.minParticipants ==> Run(s, evs).currentParticipants <= s.minParticipants
    decreases |evs|
  {
    if |evs| > 0 {
      RunBounds(Step(s, evs[0]), evs[1..]);
    }
  }

  /** The states the engine can be in: any phase past `searching` has
      reached the minimum. */
  predicate Consistent(s: SimState)
  {
    s.phase != Searching ==> s.currentParticipants >= s.minParticipants
  }

  lemma {:induction false} RunConsistent(s: SimState, evs: seq<SimEvent>)
    requires Consistent(s)
    ensures Consistent(Run(s, evs))
    decreases |evs|
  {
    if |evs| > 0 {
      RunConsistent(Step(s, evs[0]), evs[1..]);
    }
  }

  /** Once `matched`, the engine stays `matched` with the same counts: ticks
      only clear the animation flag and the dwell timer is gone. */
  lemma {:induction false} MatchedIsFinal(s: SimState, evs: seq<SimEvent>)
    requires Consistent(s) && s.phase == Matched
    ensures Run(s, evs).phase == Matched
    ensures Run(s, evs).currentParticipants == s.currentParticipants
    decreases |evs|
  {
    if |evs| > 0 {
      MatchedIsFinal(Step(s, evs[0]), evs[1..]);
    }
  }

  /** Every run from the initial state stays between one and four
      participants and keeps the phase consistent with the count. */
  lemma FromInitial(evs: seq<SimEvent>)
    ensures 1 <= Run(InitialSim, evs).currentParticipants <= 4
    ensures Run(InitialSim, evs).minParticipants == 4
    ensures Consistent(Run(InitialSim, evs))
  {
    RunBounds(InitialSim, evs);
    RunConsistent(InitialSim, evs);
  }

  /** Three successful draws reach `found` with four participants; the dwell
      timer then shows `matched`. */
  lemma ThreeJoinsThenDwell()
    ensures Run(InitialSim, [TickEvent(true), TickEvent(true), TickEvent(true)]) == SimState(4, 4, Found, true)
    ensures Run(InitialSim, [TickEvent(true), TickEvent(true), TickEvent(true), DwellElapsed]) == SimState(4, 4, Matched, true)
  {
  }
}

=== FILE: matching_status.dfy ===
/** The matching status panel: a message and an emoji per phase, and a
    progress bar clamped at 100%. */
module MatchingStatus {

  import opened JsNumber
  import opened Lifecycle
  import ParticipantCounter

  /** `getProgressPercentage`: `Math.min((current / min) * 100, 100)`. */
  function ProgressPercentage(currentParticipants: int, minParticipants: int): (p: Num)
    ensures p.Finite? ==> p.value <= 100.0
    ensures minParticipants > 0 ==> p.Finite?
    ensures minParticipants > 0 && currentParticipants >= minParticipants ==> p == Finite(100.0)
    ensures minParticipants > 0 && currentParticipants >= 0 ==> p.value >= 0.0
    ensures minParticipants == 0 && currentParticipants > 0 ==> p == Finite(100.0)
    ensures minParticipants == 0 && currentParticipants == 0 ==> p == NaN
    ensures minParticipants == 0 && currentParticipants < 0 ==> p == NegInfinity
  {
    var p := ParticipantCounter.Progress(currentParticipants, minParticipants);
    CancelPositive(100.0, if p.Finite? then p.value else 0.0, minParticipants as real);
    Min(p, 100.0)
  }

  /** Cancelling a positive factor on both sides of `<=`. */
  lemma CancelPositive(a: real, b: real, m: real)
    ensures m > 0.0 && a * m <= b * m ==> a <= b
  {
    if m > 0.0 && a > b {
      assert (a - b) * m > 0.0;
    }
  }

  /** The clamped and the unclamped display agree until the minimum is
      reached; from there on the clamped one stays at 100. */
  lemma AgreesBelowMinimum(currentParticipants: int, minParticipants: int)
    requires 0 < minParticipants && currentParticipants <= minParticipants
    ensures ProgressPercentage(currentParticipants, minParticipants)
            == ParticipantCounter.Progress(currentParticipants, minParticipants)
  {
    var p := ParticipantCounter.Progress(currentParticipants, minParticipants);
    CancelPositive(p.value, 100.0, minParticipants as real);
  }

  /** More participants never show less progress. */
  lemma Monotone(c1: int, c2: int, minParticipants: int)
    requires 0 < minParticipants && c1 <= c2
    ensures ProgressPercentage(c1, minParticipants).value <= ProgressPercentage(c2, minParticipants).value
  {
    var m := minParticipants as real;
    var q1 := ParticipantCounter.Progress(c1, minParticipants);
    var q2 := ParticipantCounter.Progress(c2, minParticipants);
    assert q1.Finite? && q2.Finite?;
    var p1, p2 := q1.value, q2.value;
    assert p1 * m == (c1 as real) * 100.0 && p2 * m == (c2 as real) * 100.0;
    assert (c1 as real) * 100.0 <= (c2 as real) * 100.0;
    assert m > 0.0 && p1 * m <= p2 * m;
    CancelPositive(p1, p2, m);
    assert p1 <= p2;
    assert ProgressPercentage(c1, minParticipants) == Min(q1, 100.0);
    assert ProgressPercentage(c2, minParticipants) == Min(q2, 100.0);
  }

  /** `getStatusText` on the phase name it is given: one message per phase,
      and the waiting message for anything else. */
  function StatusText(status: string): (t: string)
    ensures t == "メンバーを探しています..." <==> status == "searching"
    ensures t == "マッチングが見つかりました！" <==> status == "found"
    ensures t == "マッチング完了！" <==> status == "matched"
    ensures t == "マッチング中..." <==> status != "searching" && status != "found" && status != "matched"
  {
    if status == "searching" then "メンバーを探しています..."
    else if status == "found" then "マッチングが見つかりました！"
    else if status == "matched" then "マッチング完了！"
    else "マッチング中..."
  }

  /** `getStatusEmoji` on the phase name it is given: one emoji per phase,
      and the hourglass for anything else. */
  function StatusEmoji(status: string): (e: string)
    ensures e == "🔍" <==> status == "searching"
    ensures e == "✨" <==> status == "found"
    ensures e == "🎉" <==> status == "matched"
    ensures e == "⏳" <==> status != "searching" && status != "found" && status != "matched"
  {
    if status == "searching" then "🔍"
    else if status == "found" then "✨"
    else if status == "matched" then "🎉"
    else "⏳"
  }

  /** Each phase has its own message and emoji, different from each other
      and from the fallback shown for any other value. */
  lemma StatusDisplayDistinct(p: Phase, q: Phase, other: string)
    requires other != "searching" && other != "found" && other != "matched"
    ensures p != q ==> StatusText(PhaseName(p)) != StatusText(PhaseName(q))
    ensures p != q ==> StatusEmoji(PhaseName(p)) != StatusEmoji(PhaseName(q))
    ensures StatusText(other) == "マッチング中..." && StatusText(PhaseName(p)) != StatusText(other)
    ensures StatusEmoji(other) == "⏳" && StatusEmoji(PhaseName(p)) != StatusEmoji(other)
  {
  }
}

=== FILE: participant_counter.dfy ===
/** The participant counter: a row of person icons (filled up to the current
    count, the newest one pulsing while a join animates), the number still
    needed to start, and the unclamped progress percentage. */
module ParticipantCounter {

  import opened JsNumber

  /** `(currentCount / minCount) * 100`, with no guard for `minCount == 0`
      and no upper clamp. */
  function Progress(currentCount: int, minCount: int): (p: Num)
    ensures minCount != 0 ==> p.Finite? && p.value * (minCount as real) == (currentCount as real) * 100.0
    ensures minCount > 0 && currentCount > minCount ==> p.Finite? && p.value > 100.0
    ensures minCount > 0 && currentCount >= 0 ==> p.Finite? && p.value >= 0.0
    ensures minCount == 0 ==> (currentCount > 0 <==> p == PosInfinity) && (currentCount == 0 <==> p == NaN)
    ensures minCount == 0 ==> (currentCount < 0 <==> p == NegInfinity)
  {
    Scale(Divide(currentCount as real, minCount as real), 100.0)
  }

  /** `Math.max(0, minCount - currentCount)`: how many more are needed. */
  function Remaining(currentCount: int, minCount: int): (n: int)
    ensures n >= 0
    ensures n == 0 <==> currentCount >= minCount
    ensures n > 0 ==> currentCount + n == minCount
  {
    if minCount - currentCount > 0 then minCount - currentCount else 0
  }

  datatype Icon = Icon(filled: bool, pulsing: bool)

  /** `Array.from({length: maxCount})` mapped to icons; a negative length
      gives no icons. */
  function Icons(currentCount: int, maxCount: int, isAnimating: bool): (icons: seq<Icon>)
    ensures |icons| == if maxCount > 0 then maxCount else 0
    ensures forall i :: 0 <= i < |icons| ==> (icons[i].filled <==> i < currentCount)
    ensures forall i :: 0 <= i < |icons| ==> (icons[i].pulsing <==> isAnimating && i == currentCount - 1)
  {
    seq(if maxCount > 0 then maxCount else 0, i => Icon(i < currentCount, isAnimating && i == currentCount - 1))
  }

  function CountFilled(icons: seq<Icon>): (n: nat)
    ensures n <= |icons|
    decreases |icons|
  {
    if |icons| == 0 then 0 else CountFilled(icons[..|icons| - 1]) + (if icons[|icons| - 1].filled then 1 else 0)
  }

  function CountPulsing(icons: seq<Icon>): (n: nat)
    ensures n <= |icons|
    decreases |icons|
  {
    if |icons| == 0 then 0 else CountPulsing(icons[..|icons| - 1]) + (if icons[|icons| - 1].pulsing then 1 else 0)
  }

  lemma {:induction false} CountFilledPrefix(icons: seq<Icon>, c: int)
    requires forall i :: 0 <= i < |icons| ==> (icons[i].filled <==> i < c)
    ensures CountFilled(icons) == if c <= 0 then 0 else if c < |icons| then c else |icons|
    decreases |icons|
  {
    if |icons| > 0 {
      CountFilledPrefix(icons[..|icons| - 1], c);
    }
  }

  lemma {:induction false} CountPulsingAtMostOne(icons: seq<Icon>, k: int)
    requires forall i :: 0 <= i < |icons| ==> icons[i].pulsing ==> i == k
    ensures CountPulsing(icons) <= 1
    ensures CountPulsing(icons) == 1 <==> 0 <= k < |icons| && icons[k].pulsing
    decreases |icons|
  {
    if |icons| > 0 {
      var init := icons[..|icons| - 1];
      CountPulsingAtMostOne(init, k);
      if 0 <= k < |init| {
        assert init[k] == icons[k];
      }
    }
  }

  /** The number of filled icons is the current count clamped to
      `[0, maxCount]`. */
  lemma FilledIcons(currentCount: int, maxCount: int, isAnimating: bool)
    ensures var n := if maxCount > 0 then maxCount else 0;
            CountFilled(Icons(currentCount, maxCount, isAnimating))
              == if currentCount <= 0 then 0 else if currentCount < n then currentCount else n
  {
    CountFilledPrefix(Icons(currentCount, maxCount, isAnimating), currentCount);
  }

  /** At most one icon pulses, and one does exactly when a join is animating
      and the newest participant's icon is on screen. */
  lemma PulsingIcons(currentCount: int, maxCount: int, isAnimating: bool)
    ensures CountPulsing(Icons(currentCount, maxCount, isAnimating)) <= 1
    ensures (CountPulsing(Icons(currentCount, maxCount, isAnimating)) == 1) == (isAnimating && 1 <= currentCount <= maxCount)
  {
    CountPulsingAtMostOne(Icons(currentCount, maxCount, isAnimating), currentCount - 1);
  }
}

=== FILE: proposal.dfy ===
/** The venue proposal page: venues of the event's activity, sorted by rating
    from highest to lowest (stably, as `Array.prototype.sort` is), the top two
    recommended and the best one selected; the accept guard; the default
    navigation state; and the category emoji. */
module Proposal {

  import opened Common

  datatype Venue = Venue(id: int, name: string, address: string, category: string, rating: real, capacity: int)

  /** `venues.filter(v => v.category === activity)`. */
  function FilterByCategory(venues: seq<Venue>, activity: string): (r: seq<Venue>)
    ensures |r| <= |venues|
    ensures forall v :: v in r <==> v in venues && v.category == activity
    decreases |venues|
  {
    if |venues| == 0 then []
    else if venues[0].category == activity then [venues[0]] + FilterByCategory(venues[1..], activity)
    else FilterByCategory(venues[1..], activity)
  }

  /** Filtering distributes over concatenation, so it keeps the input order
      and every occurrence of a kept venue. */
  lemma {:induction false} FilterAppend(a: seq<Venue>, b: seq<Venue>, activity: string)
    ensures FilterByCategory(a + b, activity) == FilterByCategory(a, activity) + FilterByCategory(b, activity)
    decreases |a|
  {
    if |a| == 0 {
      assert a + b == b;
    } else {
      assert (a + b)[0] == a[0];
      assert (a + b)[1..] == a[1..] + b;
      FilterAppend(a[1..], b, activity);
    }
  }

  /** A single venue is kept exactly when it is of the activity. */
  lemma FilterSingle(v: Venue, activity: string)
    ensures FilterByCategory([v], activity) == if v.category == activity then [v] else []
  {
    assert [v][1..] == [];
  }

  /** Non-increasing rating, what the comparator `b.rating - a.rating` asks
      of the sorted array. */
  ghost predicate SortedByRating(s: seq<Venue>)
  {
    forall i, j :: 0 <= i < j < |s| ==> s[i].rating >= s[j].rating
  }

  /** Inserts `x` ahead of the first venue rated no higher, so `x` comes
      before venues of equal rating that follow it in the input. */
  function Insert(x: Venue, s: seq<Venue>): (r: seq<Venue>)
    ensures multiset(r) == multiset(s) + multiset{x}
    decreases |s|
  {
    if |s| == 0 || s[0].rating <= x.rating then [x] + s
    else
      assert s == [s[0]] + s[1..];
      [s[0]] + Insert(x, s[1..])
  }

  lemma {:induction false} InsertSorted(x: Venue, s: seq<Venue>)
    requires SortedByRating(s)
    ensures SortedByRating(Insert(x, s))
    decreases |s|
  {
    if |s| > 0 && s[0].rating > x.rating {
      var rest := Insert(x, s[1..]);
      InsertSorted(x, s[1..]);
      forall y | y in rest ensures y.rating <= s[0].rating {
        assert y in multiset(rest);
        if y != x {
          assert y in multiset(s[1..]);
          var k :| 0 <= k < |s[1..]| && s[1..][k] == y;
          assert s[k + 1] == y;
        }
      }
      var r := [s[0]] + rest;
      forall i, j | 0 <= i < j < |r| ensures r[i].rating >= r[j].rating {
        assert r[j] == rest[j - 1];
        if i > 0 {
          assert r[i] == rest[i - 1];
        } else {
          assert rest[j - 1] in rest;
        }
      }
    }
  }

  /** The stable sort by rating, highest first. */
  function SortByRating(s: seq<Venue>): (r: seq<Venue>)
    ensures multiset(r) == multiset(s)
    ensures SortedByRating(r)
    decreases |s|
  {
    if |s| == 0 then []
    else
      assert s == [s[0]] + s[1..];
      InsertSorted(s[0], SortByRating(s[1..]));
      Insert(s[0], SortByRating(s[1..]))
  }

  /** The venues of `s` rated exactly `v`, in order. */
  function RatedAt(s: seq<Venue>, v: real): (r: seq<Venue>)
    ensures forall y :: y in r <==> y in s && y.rating == v
    decreases |s|
  {
    if |s| == 0 then []
    else (if s[0].rating == v then [s[0]] else []) + RatedAt(s[1..], v)
  }

  lemma RatedAtConcat(a: seq<Venue>, b: seq<Venue>, v: real)
    ensures RatedAt(a + b, v) == RatedAt(a, v) + RatedAt(b, v)
    decreases |a|
  {
    if |a| > 0 {
      assert (a + b)[1..] == a[1..] + b;
      RatedAtConcat(a[1..], b, v);
    } else {
      assert a + b == b;
    }
  }

  lemma {:induction false} InsertStable(x: Venue, s: seq<Venue>, v: real)
    ensures RatedAt(Insert(x, s), v) == (if x.rating == v then [x] else []) + RatedAt(s, v)
    decreases |s|
  {
    if |s| == 0 || s[0].rating <= x.rating {
      assert ([x] + s)[1..] == s;
    } else {
      var rest := Insert(x, s[1..]);
      var r := [s[0]] + rest;
      InsertStable(x, s[1..], v);
      assert r[0] == s[0] && r[1..] == rest;
      if x.rating == v {
        assert RatedAt(r, v) == RatedAt(rest, v);
        assert RatedAt(s, v) == RatedAt(s[1..], v);
      } else {
        assert RatedAt(rest, v) == RatedAt(s[1..], v);
      }
    }
  }

  /** Stability: venues of equal rating keep their relative order. */
  lemma {:induction false} SortIsStable(s: seq<Venue>, v: real)
    ensures RatedAt(SortByRating(s), v) == RatedAt(s, v)
    decreases |s|
  {
    if |s| > 0 {
      SortIsStable(s[1..], v);
      InsertStable(s[0], SortByRating(s[1..]), v);
    }
  }

  /** The activity's venues in recommendation order. */
  function Ranked(venues: seq<Venue>, activity: string): seq<Venue>
  {
    SortByRating(FilterByCategory(venues, activity))
  }

  /** `sortedVenues.slice(0, 2)`. */
  function Recommend(venues: seq<Venue>, activity: string): (r: seq<Venue>)
    ensures |r| <= 2
    ensures forall v :: v in r ==> v in venues && v.category == activity
    ensures SortedByRating(r)
    ensures r <= Ranked(venues, activity)
    ensures |r| == 2 || r == Ranked(venues, activity)
  {
    var sorted := Ranked(venues, activity);
    assert forall v :: v in sorted ==> v in multiset(sorted);
    if |sorted| <= 2 then sorted else sorted[..2]
  }

  /** No matching venue left out of the recommendation is rated above one
      that is recommended. */
  lemma TopTwoDominates(venues: seq<Venue>, activity: string, w: Venue)
    requires w in venues && w.category == activity && w !in Recommend(venues, activity)
    ensures forall v :: v in Recommend(venues, activity) ==> v.rating >= w.rating
  {
    var sorted := Ranked(venues, activity);
    assert w in multiset(FilterByCategory(venues, activity));
    assert w in sorted;
    var j :| 0 <= j < |sorted| && sorted[j] == w;
    assert j >= 2;
    forall v | v in Recommend(venues, activity) ensures v.rating >= w.rating {
      var i :| 0 <= i < |Recommend(venues, activity)| && Recommend(venues, activity)[i] == v;
      assert sorted[i] == v;
    }
  }

  /** The page state the activity effect writes. */
  datatype PageState = PageState(selected: Option<Venue>, recommended: seq<Venue>)

  const InitialPage: PageState := PageState(None, [])

  /** The effect run when the activity is set: recommend, and select the
      best venue when there is one (otherwise the selection is kept). */
  function OnActivity(st: PageState, venues: seq<Venue>, activity: string): (r: PageState)
    ensures r.recommended == Recommend(venues, activity)
    ensures r.selected.Some? && r.selected != st.selected ==> r.selected.value in venues && r.selected.value.category == activity
    ensures (exists v :: v in venues && v.category == activity) ==> r.selected.Some? && r.selected.value in r.recommended
    ensures (forall v :: v in venues ==> v.category != activity) ==> r.selected == st.selected
    ensures |Ranked(venues, activity)| > 0 ==> r.selected == Some(Ranked(venues, activity)[0])
    ensures |Ranked(venues, activity)| == 0 ==> r.selected == st.selected
  {
    var sorted := Ranked(venues, activity);
    assert forall v :: v in sorted <==> v in multiset(sorted);
    PageState(if |sorted| > 0 then Some(sorted[0]) else st.selected, Recommend(venues, activity))
  }

  /** The auto-selected venue is the highest rated of the activity. */
  lemma AutoSelectIsBest(venues: seq<Venue>, activity: string, w: Venue)
    requires w in venues && w.category == activity
    ensures var sel := OnActivity(InitialPage, venues, activity).selected;
            sel.Some? && sel.value.rating >= w.rating
  {
    var sorted := Ranked(venues, activity);
    assert w in multiset(FilterByCategory(venues, activity));
    assert w in sorted;
    var j :| 0 <= j < |sorted| && sorted[j] == w;
    assert j == 0 || sorted[0].rating >= sorted[j].rating;
  }

  /** On the first run with no matching venue nothing is selected. */
  lemma NoMatchNoSelection(venues: seq<Venue>, activity: string)
    requires forall v :: v in venues ==> v.category != activity
    ensures OnActivity(InitialPage, venues, activity) == PageState(None, [])
  {
  }

  function HandleSelect(st: PageState, v: Venue): (r: PageState)
    ensures r.selected == Some(v) && r.recommended == st.recommended
  {
    st.(selected := Some(v))
  }

  const DashboardPath: string := "/dashboard"

  /** `handleAccept`: with no venue selected only an alert is shown;
      otherwise the confirmation names the venue and activity and the page
      moves to the dashboard. */
  datatype Accept = NoVenueSelected | Confirmed(message: string, path: string)

  function HandleAccept(selected: Option<Venue>, activity: string): (r: Accept)
    ensures r.NoVenueSelected? <==> selected.None?
    ensures r.Confirmed? ==> r.path == DashboardPath && r.message == selected.value.name + "での" + activity + "に参加が確定しました！"
  {
    match selected
    case None => NoVenueSelected
    case Some(v) => Confirmed(v.name + "での" + activity + "に参加が確定しました！", DashboardPath)
  }

  /** Once the effect has found a venue of the activity, accepting navigates. */
  lemma AcceptAfterMatch(venues: seq<Venue>, activity: string, w: Venue)
    requires w in venues && w.category == activity
    ensures HandleAccept(OnActivity(InitialPage, venues, activity).selected, activity).Confirmed?
  {
  }

  /** The navigation state the page is opened with. */
  datatype EventData = EventData(date: string, activity: string, intensity: string, totalCapacity: string)
  datatype Arrival = Arrival(eventData: EventData, currentParticipants: int)

  const DefaultActivity: string := "ボードゲーム"
  const DefaultParticipants: int := 4

  /** The state passed by the matching page, or the default for `today`
      (the ISO date of the current day, given rather than read from a
      clock). */
  function ArrivalOrDefault(state: Option<Arrival>, today: string): (a: Arrival)
    ensures state.Some? ==> a == state.value
    ensures state.None? ==> a.eventData.activity == DefaultActivity && a.currentParticipants == DefaultParticipants
    ensures state.None? ==> a.eventData.date == today && a.eventData.intensity == "エンジョイ" && a.eventData.totalCapacity == "4-6人"
  {
    match state
    case Some(s) => s
    case None => Arrival(EventData(today, DefaultActivity, "エンジョイ", "4-6人"), DefaultParticipants)
  }

  const Activities: seq<string> := ["ボードゲーム", "バレーボール", "カラオケ", "映画鑑賞"]
  const ActivityEmoji: seq<string> := ["🎲", "🏐", "🎤", "🎬"]
  const DefaultEmoji: string := "📍"

  /** `getCategoryEmoji`: the activity's own emoji, and the pin for any other
      category. */
  function CategoryEmoji(category: string): (e: string)
    ensures forall i :: 0 <= i < |Activities| && category == Activities[i] ==> e == ActivityEmoji[i]
    ensures category !in Activities <==> e == DefaultEmoji
  {
    if category == "ボードゲーム" then "🎲"
    else if category == "バレーボール" then "🏐"
    else if category == "カラオケ" then "🎤"
    else if category == "映画鑑賞" then "🎬"
    else DefaultEmoji
  }

  /** The four activities have four distinct emoji, none of them the
      default shown for any other category. */
  lemma CategoryEmojiDistinct(i: nat, j: nat, other: string)
    requires i < |Activities| && j < |Activities| && other !in Activities
    ensures i != j ==> CategoryEmoji(Activities[i]) != CategoryEmoji(Activities[j])
    ensures CategoryEmoji(other) == DefaultEmoji && CategoryEmoji(Activities[i]) != DefaultEmoji
  {
  }
}

=== FILE: recruiting.dfy ===
/** The recruiting page: loading the calendar detail (with the seed fallback
    when the detail request fails), naming the activity, and the matching
    phase it derives from the loaded capacity figures. */
module Recruiting {

  import opened Common
  import opened Decimal
  import SlotStatus
  import opened Lifecycle
  import opened Hobbies
  import opened CalendarApi

  datatype Shop = Shop(name: string, address: string)

  /** The calendar detail record the page works on. */
  datatype EventData = EventData(
    userId: string,
    hobbyId: string,
    date: string,
    timeSlot: string,
    intensity: string,
    mincapacity: int,
    maxcapacity: int,
    attendees: int,
    count: int,
    status: Option<SlotStatus.Status>,
    shops: seq<Shop>)

  /** One record of the bundled group table. */
  datatype SeedGroup = SeedGroup(id: int, location: string)

  /** What the detail effect leaves behind: event data, or an error message. */
  datatype DetailLoad = Loaded(event: EventData) | LoadError(message: string)

  const MissingIdMessage: string := "カレンダーIDが見つかりません"
  const DetailFailedMessage: string := "カレンダー詳細の取得に失敗しました"
  const DefaultActivityName: string := "ボードゲーム"
  const FallbackMinCapacity: int := 2
  const FallbackMaxCapacity: int := 6
  const FallbackAddress: string := "東京都渋谷区"

  function IdIs(calendarId: string): SeedCalendar -> bool
  {
    (c: SeedCalendar) => IntToString(c.id) == calendarId
  }

  /** The seed calendar used when the detail request fails: the first whose
      id renders as `calendarId`, else the first record of the table. */
  function SelectSeedCalendar(seed: seq<SeedCalendar>, calendarId: string): (r: Option<SeedCalendar>)
    ensures r.None? <==> |seed| == 0
    ensures forall i :: IsFirstMatch(seed, IdIs(calendarId), i) ==> r == Some(seed[i])
    ensures 0 < |seed| && (forall i :: 0 <= i < |seed| ==> IntToString(seed[i].id) != calendarId) ==> r == Some(seed[0])
  {
    match Find(seed, IdIs(calendarId))
    case Some(c) => Some(c)
    case None => if |seed| == 0 then None else Some(seed[0])
  }

  function GroupIdIs(groupId: Option<int>): SeedGroup -> bool
  {
    (g: SeedGroup) => groupId == Some(g.id)
  }

  /** The seed group used with it: the first whose id is the calendar's
      `group_id` (never one, when that is `null`), else the first group. */
  function SelectGroup(groups: seq<SeedGroup>, groupId: Option<int>): (r: Option<SeedGroup>)
    ensures r.None? <==> |groups| == 0
    ensures forall i :: IsFirstMatch(groups, GroupIdIs(groupId), i) ==> r == Some(groups[i])
    ensures 0 < |groups| && (groupId.None? || forall i :: 0 <= i < |groups| ==> groups[i].id != groupId.value) ==>
              r == Some(groups[0])
  {
    match Find(groups, GroupIdIs(groupId))
    case Some(g) => Some(g)
    case None => if |groups| == 0 then None else Some(groups[0])
  }

  /** The event data built from seed records. */
  function FallbackEvent(c: SeedCalendar, g: SeedGroup): (e: EventData)
    ensures e.mincapacity == FallbackMinCapacity && e.maxcapacity == FallbackMaxCapacity
    ensures e.count == 0
    ensures e.shops == [Shop(g.location, FallbackAddress)]
    ensures e.userId == IntToString(c.userId) && e.hobbyId == IntToString(c.hobbyId)
    ensures e.date == c.date && e.attendees == c.attendees
    ensures e.timeSlot == c.timeSlot && e.intensity == c.intensity
    ensures e.status.Some? && SlotStatus.Name(e.status.value) == c.status
  {
    EventData(
      IntToString(c.userId), IntToString(c.hobbyId), c.date, c.timeSlot, c.intensity,
      FallbackMinCapacity, FallbackMaxCapacity, c.attendees, 0, Some(SlotStatus.Parse(c.status)),
      [Shop(g.location, FallbackAddress)])
  }

  /** The detail effect: no (or an empty) `calendarId` is an error; a
      successful request is taken as is; a failed one falls back to the seed
      tables, and is an error only when a seed table is empty. */
  function LoadDetail(calendarId: Option<string>, remote: Fetch<EventData>, seed: seq<SeedCalendar>, groups: seq<SeedGroup>)
    : (r: DetailLoad)
    ensures calendarId.None? || calendarId == Some("") ==> r == LoadError(MissingIdMessage)
    ensures calendarId.Some? && calendarId.value != "" && remote.Fetched? ==> r == Loaded(remote.body)
    ensures calendarId.Some? && calendarId.value != "" && remote.FetchFailed? ==>
              (r.LoadError? <==> |seed| == 0 || |groups| == 0)
    ensures calendarId.Some? && calendarId.value != "" && remote.FetchFailed? && 0 < |seed| && 0 < |groups| ==>
              var c := SelectSeedCalendar(seed, calendarId.value).value;
              r == Loaded(FallbackEvent(c, SelectGroup(groups, c.groupId).value))
    ensures calendarId.Some? && calendarId.value != "" && remote.FetchFailed? && (|seed| == 0 || |groups| == 0) ==>
              r == LoadError(DetailFailedMessage)
    ensures r.LoadError? ==> r.message == MissingIdMessage || r.message == DetailFailedMessage
  {
    if calendarId.None? || calendarId.value == "" then LoadError(MissingIdMessage)
    else
      match remote
      case Fetched(e) => Loaded(e)
      case FetchFailed =>
        var c := SelectSeedCalendar(seed, calendarId.value);
        var g := SelectGroup(groups, if c.Some? then c.value.groupId else None);
        if c.Some? && g.Some? then Loaded(FallbackEvent(c.value, g.value))
        else LoadError(DetailFailedMessage)
  }

  function HobbyIdIs(hobbyId: string): Hobby -> bool
  {
    (h: Hobby) => h.hobbyId == hobbyId
  }

  /** `getActivityName`: the name of the first hobby with the id, else the
      default activity. */
  function ActivityName(hobbies: seq<Hobby>, hobbyId: string): (name: string)
    ensures (forall i :: 0 <= i < |hobbies| ==> hobbies[i].hobbyId != hobbyId) ==> name == DefaultActivityName
    ensures forall i :: IsFirstMatch(hobbies, HobbyIdIs(hobbyId), i) ==> name == hobbies[i].name
  {
    match Find(hobbies, HobbyIdIs(hobbyId))
    case Some(h) => h.name
    case None => DefaultActivityName
  }

  /** With the fallback catalogue every fallback id names its own hobby. */
  lemma FallbackActivityNames()
    ensures ActivityName(FallbackHobbies, "1") == "ボードゲーム"
    ensures ActivityName(FallbackHobbies, "2") == "バレーボール"
    ensures ActivityName(FallbackHobbies, "3") == "カラオケ"
    ensures ActivityName(FallbackHobbies, "4") == "映画鑑賞"
  {
    assert IsFirstMatch(FallbackHobbies, HobbyIdIs("1"), 0);
    assert IsFirstMatch(FallbackHobbies, HobbyIdIs("2"), 1);
    assert IsFirstMatch(FallbackHobbies, HobbyIdIs("3"), 2);
    assert IsFirstMatch(FallbackHobbies, HobbyIdIs("4"), 3);
  }

  /** The page's matching state. */
  datatype ViewState = ViewState(phase: Phase, isAnimating: bool)

  const InitialView: ViewState := ViewState(Searching, false)

  /** The effect run on every event-data change. */
  function OnEventData(s: ViewState, e: EventData): (t: ViewState)
    ensures t.phase == Matched <==> e.count >= e.mincapacity
    ensures t.phase == Searching <==> e.count < e.mincapacity
    ensures t.isAnimating == s.isAnimating
  {
    s.(phase := if e.count >= e.mincapacity then Matched else Searching)
  }

  /** The dwell timer firing. */
  function OnDwell(s: ViewState): (t: ViewState)
    ensures s.phase == Found ==> t == s.(phase := Matched)
    ensures s.phase != Found ==> t == s
  {
    s.(phase := Dwell(s.phase))
  }

  datatype Event = DataChanged(event: EventData) | DwellElapsed

  function Step(s: ViewState, ev: Event): ViewState
  {
    match ev
    case DataChanged(e) => OnEventData(s, e)
    case DwellElapsed => OnDwell(s)
  }

  function Run(s: ViewState, evs: seq<Event>): ViewState
    decreases |evs|
  {
    if |evs| == 0 then s else Run(Step(s, evs[0]), evs[1..])
  }

  /** The page never shows `found`: the derivation yields only `matched` or
      `searching`, and the dwell timer, which only `found` schedules,
      therefore never fires. */
  lemma {:induction false} NeverFound(s: ViewState, evs: seq<Event>)
    requires s.phase != Found
    ensures Run(s, evs).phase != Found
    ensures Run(s, evs).isAnimating == s.isAnimating
    decreases |evs|
  {
    if |evs| > 0 {
      NeverFound(Step(s, evs[0]), evs[1..]);
    }
  }

  /** A `matched` page returns to `searching` when a later update reports
      fewer participants than the minimum. */
  lemma MatchedCanRegress(e: EventData)
    requires e.count < e.mincapacity
    ensures var shown := OnEventData(InitialView, e.(count := e.mincapacity));
            shown.phase == Matched && OnEventData(shown, e).phase == Searching
  {
  }

  /** With a calendar id and non-empty seed tables, a failed detail request
      still loads data, and that data derives the phase `searching`. */
  lemma FallbackIsSearching(s: ViewState, calendarId: string, seed: seq<SeedCalendar>, groups: seq<SeedGroup>)
    requires calendarId != "" && |seed| > 0 && |groups| > 0
    ensures LoadDetail(Some(calendarId), FetchFailed, seed, groups).Loaded?
    ensures OnEventData(s, LoadDetail(Some(calendarId), FetchFailed, seed, groups).event).phase == Searching
  {
  }
}

=== FILE: register.dfy ===
/** The registration page: the attendee stepper, the hobby choices it offers,
    the submit guard, the request it sends and the page the response status
    leads to. */
module Register {

  import opened Common
  import opened Hobbies
  import SlotStatus

  const InitialAttendees: int := 1
  const MinAttendees: int := 1
  const MaxAttendees: int := 10
  const CurrentUserId: string := "1"

  /** The `-` button: `Math.max(1, attendees - 1)`. */
  function DecreaseAttendees(a: int): (r: int)
    ensures r >= MinAttendees
    ensures a > MinAttendees ==> r == a - 1
    ensures a <= MinAttendees ==> r == MinAttendees
  {
    if a - 1 > MinAttendees then a - 1 else MinAttendees
  }

  /** The `+` button: `Math.min(10, attendees + 1)`. */
  function IncreaseAttendees(a: int): (r: int)
    ensures r <= MaxAttendees
    ensures a < MaxAttendees ==> r == a + 1
    ensures a >= MaxAttendees ==> r == MaxAttendees
  {
    if a + 1 < MaxAttendees then a + 1 else MaxAttendees
  }

  datatype Stepper = Minus | Plus

  function StepAll(a: int, presses: seq<Stepper>): int
    decreases |presses|
  {
    if |presses| == 0 then a
    else StepAll(match presses[0] case Minus => DecreaseAttendees(a) case Plus => IncreaseAttendees(a), presses[1..])
  }

  /** Starting from the initial count (or any count in range), the attendee
      count never leaves `[1, 10]`. */
  lemma {:induction false} AttendeesInRange(a: int, presses: seq<Stepper>)
    requires MinAttendees <= a <= MaxAttendees
    ensures MinAttendees <= StepAll(a, presses) <= MaxAttendees
    decreases |presses|
  {
    if |presses| > 0 {
      var next := match presses[0] case Minus => DecreaseAttendees(a) case Plus => IncreaseAttendees(a);
      AttendeesInRange(next, presses[1..]);
    }
  }

  /** The hobbies offered as buttons: `hobbies.slice(0, 4)`. */
  function OfferedHobbies(hobbies: seq<Hobby>): (offered: seq<Hobby>)
    ensures |offered| <= 4
    ensures |offered| == if |hobbies| < 4 then |hobbies| else 4
    ensures offered <= hobbies
  {
    if |hobbies| <= 4 then hobbies else hobbies[..4]
  }

  /** With the fallback list all four hobbies are offered. */
  lemma FallbackAllOffered()
    ensures OfferedHobbies(HobbiesAfterFetch(FetchFailed)) == FallbackHobbies
  {
  }

  /** The form state; `selectedHobby` is `null` until a hobby is picked. */
  datatype Form = Form(selectedHobby: Option<string>, timeSlot: string, intensity: string, attendees: int)

  const InitialForm: Form := Form(None, "", "", InitialAttendees)

  /** JavaScript truthiness of the three required fields. */
  predicate Complete(f: Form)
  {
    f.selectedHobby.Some? && f.selectedHobby.value != "" && f.timeSlot != "" && f.intensity != ""
  }

  datatype RegisterRequest = RegisterRequest(
    hobbyId: string,
    userId: string,
    date: string,
    timeSlot: string,
    intensity: string,
    attendees: int,
    status: Option<SlotStatus.Status>)

  datatype RegisterResponse = RegisterResponse(calendarId: string, status: Option<SlotStatus.Status>)

  /** The request body built from a complete form and the `date` query
      parameter (`''` when absent). */
  function BuildRequest(f: Form, dateParam: Option<string>): (req: RegisterRequest)
    requires Complete(f)
    ensures req.userId == CurrentUserId
    ensures req.status == Some(SlotStatus.Recruiting)
    ensures req.date == (if dateParam.Some? then dateParam.value else "")
    ensures req.hobbyId == f.selectedHobby.value && req.timeSlot == f.timeSlot
    ensures req.intensity == f.intensity && req.attendees == f.attendees
  {
    RegisterRequest(
      f.selectedHobby.value, CurrentUserId,
      match dateParam case Some(d) => d case None => "",
      f.timeSlot, f.intensity, f.attendees, Some(SlotStatus.Recruiting))
  }

  /** The page a registration response leads to. */
  function PathAfterRegister(status: Option<SlotStatus.Status>): (path: string)
    ensures path == "/recruiting" <==> status == Some(SlotStatus.Recruiting)
    ensures path == "/proposal" <==> status == Some(SlotStatus.Matched)
    ensures path == "/dashboard" <==> status != Some(SlotStatus.Recruiting) && status != Some(SlotStatus.Matched)
  {
    match status
    case Some(Recruiting) => "/recruiting"
    case Some(Matched) => "/proposal"
    case _ => "/dashboard"
  }

  /** What a submission does: nothing is sent for an incomplete form; a sent
      request either fails (an alert, no navigation) or navigates. */
  datatype SubmitOutcome =
    | Rejected
    | Failed(request: RegisterRequest)
    | Navigated(request: RegisterRequest, path: string)

  /** `handleSubmit`; `respond` is the service's answer to the request. */
  function HandleSubmit(f: Form, dateParam: Option<string>, respond: RegisterRequest -> Fetch<RegisterResponse>)
    : (out: SubmitOutcome)
    ensures out.Rejected? <==> !Complete(f)
    ensures !out.Rejected? ==> out.request == BuildRequest(f, dateParam)
    ensures out.Failed? <==> Complete(f) && respond(BuildRequest(f, dateParam)).FetchFailed?
    ensures out.Navigated? ==> out.path == PathAfterRegister(respond(out.request).body.status)
  {
    if !Complete(f) then Rejected
    else
      var req := BuildRequest(f, dateParam);
      match respond(req)
      case FetchFailed => Failed(req)
      case Fetched(resp) => Navigated(req, PathAfterRegister(resp.status))
  }

  /** The initial form cannot be submitted. */
  lemma InitialFormRejected(dateParam: Option<string>, respond: RegisterRequest -> Fetch<RegisterResponse>)
    ensures HandleSubmit(InitialForm, dateParam, respond) == Rejected
  {
  }
}

=== FILE: slot_status.dfy ===
/** The status of a calendar slot. The calendar list carries it as a free-form
    string; the decision tables of the pages compare it with a handful of
    known names, so every other string is kept verbatim as `Other`. A `null`
    status, or no entry at all, is `None` of an `Option<Status>`. */
module SlotStatus {

  import opened Common

  datatype Status = Recruiting | Matched | Closed | Cancelled | Unknown | Other(raw: string)

  /** The names the pages recognise. */
  predicate IsKnownName(s: string)
  {
    s == "recruiting" || s == "matched" || s == "closed" || s == "cancelled" || s == "unknown"
  }

  /** A status value is well formed when `Other` does not hide a known name. */
  predicate Valid(st: Status)
  {
    st.Other? ==> !IsKnownName(st.raw)
  }

  /** The wire string of a status. */
  function Name(st: Status): string
  {
    match st
    case Recruiting => "recruiting"
    case Matched => "matched"
    case Closed => "closed"
    case Cancelled => "cancelled"
    case Unknown => "unknown"
    case Other(raw) => raw
  }

  /** Classifies a wire string; no string is lost. */
  function Parse(s: string): (st: Status)
    ensures Valid(st)
    ensures Name(st) == s
  {
    if s == "recruiting" then Recruiting
    else if s == "matched" then Matched
    else if s == "closed" then Closed
    else if s == "cancelled" then Cancelled
    else if s == "unknown" then Unknown
    else Other(s)
  }

  /** Classifies a nullable wire string. */
  function ParseNullable(s: Option<string>): (st: Option<Status>)
    ensures st.None? <==> s.None?
    ensures st.Some? ==> Valid(st.value) && Name(st.value) == s.value
  {
    match s
    case None => None
    case Some(v) => Some(Parse(v))
  }

  /** Parsing the name of a well-formed status gives the status back, so
      `Parse` and `Name` are mutually inverse on well-formed values. */
  lemma ParseName(st: Status)
    requires Valid(st)
    ensures Parse(Name(st)) == st
  {
  }
}

=== FILE: tile_class.dfy ===
/** The tile colouring of the two calendar components: in the month view, the
    status of the first entry dated on the tile's day picks a CSS class.
    `components/Calendar.tsx` reads `{calenderid, date, status}` list
    responses; `components/calendar/Calendar.tsx` reads `CalendarItem`s whose
    status may be `null`. Both use the same decision table. */
module TileClass {

  import opened Common
  import opened SlotStatus
  import opened DateKey
  import opened CalendarApi
  import Dashboard

  /** The decision table shared by both components. */
  function ClassFor(status: Option<Status>): (cls: string)
    ensures cls == "calendar-yellow" <==> status == Some(Recruiting)
    ensures cls == "calendar-green" <==> status == Some(Matched)
    ensures cls == "calendar-gray" <==> status == Some(Closed) || status == Some(Cancelled)
    ensures cls == "calendar-white" <==> status == Some(Unknown)
    ensures cls == "" <==> status.None? || status.value.Other?
  {
    match status
    case Some(Recruiting) => "calendar-yellow"
    case Some(Matched) => "calendar-green"
    case Some(Closed) => "calendar-gray"
    case Some(Cancelled) => "calendar-gray"
    case Some(Unknown) => "calendar-white"
    case _ => ""
  }

  /** `getTileClassName` of `components/Calendar.tsx`. */
  function TileClassName(view: string, calendars: seq<CalendarResponse>, day: Day): (cls: string)
    ensures view != "month" ==> cls == ""
    ensures view == "month" && (forall i :: 0 <= i < |calendars| ==> calendars[i].date != Key(day)) ==> cls == ""
    ensures forall i :: view == "month" && IsFirstMatch(calendars, Dashboard.DateIs(Key(day)), i) ==>
                          cls == ClassFor(Some(Parse(calendars[i].status)))
  {
    if view == "month" then
      ClassFor(Dashboard.StatusOf(Dashboard.SelectedCalendar(calendars, Key(day))))
    else ""
  }

  /** An entry of the list as `components/calendar/Calendar.tsx` receives it. */
  datatype CalendarItem = CalendarItem(calendarId: string, date: string, status: Option<string>)

  function ItemDateIs(key: string): CalendarItem -> bool
  {
    (c: CalendarItem) => c.date == key
  }

  /** `getTileClassName` of `components/calendar/Calendar.tsx`. */
  function ItemTileClassName(view: string, items: seq<CalendarItem>, day: Day): (cls: string)
    ensures view != "month" ==> cls == ""
    ensures view == "month" && (forall i :: 0 <= i < |items| ==> items[i].date != Key(day)) ==> cls == ""
    ensures forall i :: view == "month" && IsFirstMatch(items, ItemDateIs(Key(day)), i) ==>
                          cls == ClassFor(ParseNullable(items[i].status))
  {
    if view == "month" then
      match Find(items, ItemDateIs(Key(day)))
      case None => ClassFor(None)
      case Some(item) => ClassFor(ParseNullable(item.status))
    else ""
  }

  /** The class depends only on the first entry for the day: entries after
      it change nothing. */
  lemma TileIgnoresLaterEntries(view: string, calendars: seq<CalendarResponse>, more: seq<CalendarResponse>, day: Day)
    requires exists i :: 0 <= i < |calendars| && calendars[i].date == Key(day)
    ensures TileClassName(view, calendars + more, day) == TileClassName(view, calendars, day)
  {
    FindIgnoresSuffix(calendars, more, Dashboard.DateIs(Key(day)));
  }

  /** The colour of a month tile tells where selecting that day leads: yellow
      tiles open the recruiting page, green tiles the proposal, every other
      tile (gray, white or plain) the registration form. */
  lemma TileAgreesWithNavigation(calendars: seq<CalendarResponse>, day: Day)
    ensures var cls := TileClassName("month", calendars, day);
            var path := Dashboard.Target(calendars, day).path;
            && (cls == "calendar-yellow" <==> path == "/recruiting")
            && (cls == "calendar-green" <==> path == "/proposal")
            && (cls != "calendar-yellow" && cls != "calendar-green" <==> path == "/register")
  {
  }
}
